=== FILE: README.md ===
# Posture coach: evaluators and frame processor

A Dafny model of the posture-coaching core of `src/App.js`: a web app that
reads 33 body landmarks per camera frame, compares them with a calibration
frame or with fixed thresholds, shows spoken and written corrections, counts
exercise holds and repetitions, and nags the user after two seconds of bad
posture.

What is modelled:

- `getPostureFeedback` (module `Posture`): five threshold checks (head
  height, shoulder level, back angle, lean, neck length) against the
  calibration frame, the phrases joined with ". ", or the single phrase
  "Great posture! Keep it up!" when nothing fired.
- `calculateMcKenzieAccuracy` and `calculateBridgingAccuracy` (module
  `Exercises`): one frame against absolute thresholds; `None` for a missing
  frame (the source's `null`), "" for a passing frame, the joined phrases
  otherwise.
- The per-frame work of `onResults` (module `Session`) as a pure function
  `Step` from a state record and one frame input to a new state and a list
  of events. The state holds the mode, the hold, repetition and bad-frame
  counters, the time of the last spoken correction, the feedback on screen
  and the calibration frame. Speech, notifications, the posture-status style
  property and the skeleton colour become `Event`s. `handleModeChange` is
  `ChangeMode`.
- Runs of the frame processor over many frames (module `Replay`), used for
  the properties that only show over time: a repetition after a held bridge,
  a notification every 60 frames of bad posture.

Supporting modules: `Wrappers` (`Option`), `Strings` (join with ". ", and a
split that cuts at every '.' and drops the character after it, which undoes
the join on phrases without a '.'; substring search for `includes`, decimal printing of whole numbers),
`Landmarks` (the landmark record, frames of exactly 33 landmarks, the
landmark indices used, midpoints, `Abs`), `Corrections` (one constructor per
correction phrase, its exact wording, and the position of its check).

Modelling choices:

- Coordinates are `real`. `Math.atan2` and `Math.hypot` are function values
  in a `MathLib` record passed to every evaluator that needs them; nothing
  is assumed about them except, where a property needs it, that `hypot` is
  never negative (`HypotNonNegative`, a hypothesis of the lemma that uses
  it).
- The imported `badPosture(landmarks, goodPosture)` (`src/App.js:12`, called
  at line 543) is not part of this model: its verdict arrives as the boolean
  `FrameInput.badPosture`. `Date.now()` is `FrameInput.now`.
- `FrameInput.calibrate` is the value of the flag `btnSelected` (imported
  from `./components/Menu`) at the frame. In the code the flag survives
  frames without a pose, because line 457 returns before line 532 reads it,
  and it is cleared by `setBtn(false)` at line 535 on the frame that stores
  the calibration. The model does not track the flag: the inputs are
  expected to carry it that way.
- `onResults` is handed to MediaPipe once, at line 576 inside the
  `useEffect` with an empty dependency list (lines 564-598), so the running
  application calls the closure of the first render: there `exerciseMode`
  is always 'posture', `holdTimer` and `lastAudioFeedbackTime` are always 0
  and `postureFeedback` is always ''. Only the plain variables `goodPosture`
  (line 211) and `badPostureCount` (line 213) of that closure persist from
  frame to frame, and only because that one closure is kept: every render
  of `App` sets its own `goodPosture` back to `null` and its own
  `badPostureCount` back to 0. No single closure of `App` behaves like the
  model. `Step` reads the React state (the mode, the hold and repetition
  counters, the speech time and the feedback) as the previous frame left
  it, as a closure of the latest render would, while it keeps the
  calibration frame and the bad-frame counter across frames, as only the
  one registered closure does; the updates of one frame take effect
  together. So the hold
  counter shown in "Hold bridge. N seconds" is the one from before the
  frame, and the speech at line 552 speaks the feedback that was on screen
  before the frame.
- Behaviour of the code worth knowing, which the model follows:
  - a failing exercise frame leaves the hold counter where it was (there is
    no reset on failure at lines 483-490 and 498-505);
  - a repetition completes on the 92nd consecutive passing frame from a zero
    hold counter, not the 91st: the counter must already exceed 90 when the
    frame starts;
  - a frame compared with itself is reported as good posture only when its
    own shoulders are level, because the shoulder check (lines 237-244)
    never reads the calibration frame (`Posture.SameFrameUnevenShoulders`);
  - the debounce at lines 538-561 runs in every mode once a calibration
    frame exists, not only in posture mode; in posture mode a frame with a
    correction and a bad verdict is counted twice (lines 521 and 544);
  - because of that double count, a posture-mode counter that is odd
    overshoots the limit: from 59 one such frame reaches 60 at line 521 and
    61 at line 544, notifies once and clears the counter, so one count is
    lost (`Session.PostureOvershoot`). From an even counter the counter
    lands exactly on 60 and nothing is lost.
  - the press-up evaluator can never return the passing empty string: a
    frame that gets past the prone check has its shoulders at or below its
    hips, so the elevation check at line 341 always fires. Press-up
    repetitions therefore never advance (`Session.PressUpNeverCounts`).
  - in posture mode with a calibration frame, the GOOD or NEEDS IMPROVEMENT
    status set at lines 515 and 520 is always overwritten in the same frame
    by the BAD or GOOD status of the debounce at lines 545 and 560, so the
    page is left showing the external verdict
    (`Session.FinalStatusIsVerdict`).

## Model

| member | source | states |
|---|---|---|
| Strings.SplitJoin | src/App.js:302 | splitting a ". "-joined list of phrases, none of which contains a '.', at the separator gives back exactly the list |
| Strings.ParseNatToString | src/App.js:491 | the decimal text of the whole number of seconds reads back as that number |
| Strings.ToStringParseNat | src/App.js:491 | conversely, every decimal numeral (digits only, no leading zero unless it is "0") is the text of the number it reads as, so a numeral in the hold caption fixes the number and the number fixes the numeral |
| Strings.JoinDotsSeparate | src/App.js:302 | in phrases joined with ". " that contain no '.', every '.' is followed by a blank |
| Corrections.Render | src/App.js:360 | the joined corrections are empty exactly when no correction fired, never contain a capital 'G', have a blank after every '.', and split back into the phrases of the corrections in order |
| Corrections.GreatPostureShape | src/App.js:297-300 | "Great posture! Keep it up!" is one phrase (no separator inside) and contains "Great posture!" |
| Corrections.RenderLacksMarker | src/App.js:512 | joined correction phrases never contain "Great posture!", so the marker search cannot mistake a correction for good posture |
| Corrections.OrderedPrepend | src/App.js:226-295 | putting the output of an earlier check in front of the outputs of later checks keeps the phrases in check order |
| Posture.PostureCorrections | src/App.js:225-295 | the fired posture corrections come in check order (head, shoulders, back, lean, neck), at most one per check, all posture phrases |
| Posture.PostureMember | src/App.js:226-295 | a phrase is in the posture result exactly when the check that owns it emitted it |
| Posture.HeadPhrases | src/App.js:229-234 | "Lift your head slightly" fires iff the nose is more than 0.03 lower than at calibration, "Lower your head slightly" iff more than 0.03 higher, never both |
| Posture.ShoulderPhrases | src/App.js:237-244 | a shoulder phrase fires iff the shoulders differ in height by more than 0.02; it names the left shoulder exactly when the left is lower on screen |
| Posture.ShoulderIgnoresCalibration | src/App.js:237-244 | the shoulder phrases are the same whatever the calibration frame |
| Posture.BackAndLeanPhrases | src/App.js:260-285 | "Straighten your back…" fires iff the back angle exceeds the calibrated one by more than 0.1, "Relax your back…" iff it is more than 0.1 below; each back phrase fires iff the lean phrase of the same direction does |
| Posture.NeckPhrase | src/App.js:288-295 | "Relax your shoulders and stretch your neck" fires iff the neck is shorter than 95% of its calibrated length |
| Posture.PostureFeedback | src/App.js:225-303 | the verdict is never empty; it is "Great posture! Keep it up!" iff no correction fired, contains "Great posture!" iff no correction fired, has a blank after every '.', and otherwise splits back into the fired phrases in check order |
| Posture.SameFrameIsGreat | src/App.js:225-303 | a frame with level shoulders compared with itself gives exactly the good-posture phrase, given that hypot is never negative |
| Posture.SameFrameUnevenShoulders | src/App.js:237-244 | a frame with uneven shoulders compared with itself is not good posture |
| Exercises.PressUpCorrections | src/App.js:320-358 | press-up phrases come in check order; the result is exactly "Lie face down on your stomach" iff the frame is not prone; on a prone frame "Push up your chest higher" always fires, so the list is never empty |
| Exercises.PressUpPhrases | src/App.js:326-358 | on a prone frame: no "Lie face down", the arms phrase fires iff the elbow angle exceeds 0.3, the hips phrase iff the hips differ by more than 0.05, the neck phrase iff the neck angle exceeds 0.3 |
| Exercises.PressUpFeedback | src/App.js:305-361 | a missing frame gives `None` and only it; the result is never the passing empty string; a frame that is not prone gives exactly "Lie face down on your stomach"; otherwise it splits back into the press-up phrases, with a blank after every '.' |
| Exercises.BridgingCorrections | src/App.js:374-393 | bridging phrases come in the order hips lifted, hips level, shoulders stable; none fires exactly when hips are at least 0.1 from the shoulders and both pairs are level within 0.05 |
| Exercises.BridgingPhrases | src/App.js:378-393 | each bridging phrase fires iff its own threshold is crossed |
| Exercises.BridgingFeedback | src/App.js:363-396 | a missing frame gives `None` and only it; the result is "" exactly when the bridge is held; otherwise it splits back into the bridging phrases, with a blank after every '.' |
| Session.HoldText | src/App.js:491 | the hold caption reads the caption, a decimal numeral (digits only, no leading zero), then " seconds", and the number is the hold counter divided by 30, rounded down |
| Session.StartInv | src/App.js:211-222 | the start state (posture mode, all counters 0, no feedback, no calibration frame) keeps the counter bounds |
| Session.ExerciseFrame | src/App.js:478-506 | a passing frame with the hold counter above 90 adds a repetition, clears the hold and speaks once, the exercise's own congratulation ("Good rep! …"); any other passing frame adds one to the hold; a failing frame shows its phrases and leaves both counters; the counters shown come from before the frame; the skeleton is drawn green on a passing frame and red on a failing one |
| Session.PostureFrame | src/App.js:508-523 | the posture verdict is shown; a verdict containing "Great posture!" clears the bad-frame counter, any other adds one to it; the events are exactly the GOOD status and a green skeleton, or the NEEDS IMPROVEMENT status and a red skeleton; nothing is spoken or notified |
| Session.Debounce | src/App.js:543-561 | a good verdict clears the counter; a bad one adds one, and on reaching 60 notifies once and clears it; the notification is "Correct your posture!"; speech happens, and its time is recorded, only when the last speech is more than 30000 ms ago, and it speaks the feedback on screen or, when that is empty, "Your posture needs correction. Please sit up straight."; the events open with the BAD status for a bad verdict and GOOD otherwise, and show no other status; nothing else in the state changes |
| Session.Step | src/App.js:446-562 | with no pose nothing changes and nothing is emitted; a calibrate press stores this frame; the mode never changes; the counter bounds are kept; the speech time moves only to `now` after the cooldown; at most one notification per frame |
| Session.ChangeMode | src/App.js:600-603 | switching mode sets the mode and clears the repetition count, and changes nothing else in the state (the hold and bad-frame counters, the speech time, the feedback and the calibration carry over) |
| Session.PostureStepShows | src/App.js:508-510 | in posture mode with a calibration frame, the frame leaves on screen the posture verdict of this frame against that calibration |
| Session.StepKeepsEvaluation | src/App.js:532-561 | after the mode's evaluation, the rest of the frame (calibration and debounce) leaves the hold and repetition counters and the feedback as the evaluation set them |
| Session.LastStatusOfTail | src/App.js:545-560 | a run of events that opens with a status and shows no other decides the status left on the page, whatever came before it |
| Session.FinalStatusIsVerdict | src/App.js:512-560 | on every frame with a pose and a calibration frame (held or taken on this frame), the last status shown is BAD for a bad external verdict and GOOD otherwise |
| Session.BridgingStep | src/App.js:493-506 | in bridging mode a held bridge with the hold counter above 90 completes a repetition and clears the hold, a held bridge otherwise adds one to the hold and shows the seconds held, anything else shows the bridging phrases and leaves both counters |
| Session.PressUpNeverCounts | src/App.js:478-491 | in press-up mode no frame changes the hold or repetition counters |
| Session.UncalibratedStep | src/App.js:538-540 | without a calibration frame the debounce does not run: the bad-frame counter and the speech time stay and nothing is notified; in posture mode the state does not change at all |
| Session.DebounceStep | src/App.js:532-561 | with a calibration frame, a good external verdict clears the bad-frame counter and a bad one raises the count reached by the posture branch by one, notifying and clearing at 60 |
| Session.ExerciseBadFrame | src/App.js:543-557 | in a calibrated exercise mode a bad verdict raises the bad-frame counter by one, clearing it and notifying once when it reaches 60 |
| Session.PostureBadFrame | src/App.js:517-557 | in calibrated posture mode a frame with a correction and a bad verdict raises the counter by two, clearing it and notifying once when it reaches 60 |
| Session.PostureOvershoot | src/App.js:516-557 | in calibrated posture mode, from a counter of 59, one frame with a correction and a bad verdict notifies once and clears the counter, so start + 2 is not notifications × 60 + counter |
| Session.DoubleIncrement | src/App.js:516-544 | in posture mode, a frame with a correction and a bad verdict adds two to the bad-frame counter below the limit |
| Session.PostureSpeech | src/App.js:546-554 | in posture mode a correction is spoken exactly when a notification fires more than 30000 ms after the last speech, and only then is the speech time updated |
| Replay.Run | src/App.js:446-562 | running the frame processor over any sequence of frames keeps the counter bounds and the mode |
| Replay.FoldAppend | src/App.js:446-562 | running two stretches of frames one after the other is running their concatenation |
| Replay.BridgeHoldAccumulates | src/App.js:498-506 | in bridging mode, held frames that keep the hold counter at most 91 each add one to it and complete no repetition |
| Replay.BridgeRepetition | src/App.js:498-506 | in bridging mode, from a zero hold counter, the first 91 held frames complete no repetition and the 92nd completes exactly one and clears the hold counter |
| Replay.FoldCounter | src/App.js:543-557 | if every frame raises the bad-frame counter by a fixed step (clearing and notifying at 60), the counter and the notifications after a run are those of the iterated step |
| Replay.CountTotal | src/App.js:546-556 | raising the counter by one or two at a time from a start below 60 that is a multiple of the step, the notifications are the quotient of the start plus the total rise by 60 and the counter the remainder |
| Replay.BelowLimit | src/App.js:546-556 | rises that keep the counter below 60 add up and notify nothing |
| Replay.PersistentBadPosture | src/App.js:543-557 | in a calibrated exercise mode, n frames with a bad verdict leave the counter below 60 with start + n = notifications × 60 + counter: the notifications are (start + n) div 60 and the counter (start + n) mod 60 |
| Replay.PersistentBadPostureCountsTwice | src/App.js:516-557 | in calibrated posture mode, from an even start counter, n frames with a correction and a bad verdict leave the counter below 60 with start + 2n = notifications × 60 + counter: one notification every 30 frames |
| Replay.QuietRunKeepsSpeechTime | src/App.js:546-554 | in posture mode, a stretch of frames that notifies nothing speaks nothing and keeps the time of the last speech |
| Replay.SpeechCooldownPair | src/App.js:546-554 | of two notifications in posture mode with only quiet frames between them, the first spoken, the second is spoken exactly when it comes more than 30000 ms after the first |
| Replay.SpeechCooldownWitness | src/App.js:516-557 | such a pair happens: from a counter of 58, with a correction and a bad verdict on every frame, a notification, 29 quiet frames and a second notification, spoken exactly when more than 30000 ms after the first |

## Left out

- The React components, routing and JSX (`Dashboard`, `VirtualAssistant`,
  `VoiceAssistant`, `Sidebar`, lines 22-201 and 605-699): user interface.
- Canvas drawing, the MediaPipe `Pose` and `Camera` setup and the loader
  (lines 447-451, 464-476, 525-530, 564-598): foreign library calls and I/O. Only
  the colour chosen for the skeleton is kept, as an event.
- `postureRef` and the calibrate button's colour (lines 455-456, 461-462):
  display state that no rule reads.
- `showNotification`, `speakFeedback`, `changeStyleProperty`,
  `Notification.requestPermission`: browser side effects, kept only as the
  events `Notify`, `Speak` and `ShowStatus`.
- `badPosture` from `./utils/utilities`: not part of this model; its verdict
  is an input.
- `getExerciseInstructions` (lines 398-443): a fixed text lookup.
- `exerciseState` (line 221) and `midKnee` (lines 255-258): declared but
  never read.
- Console logging.
- IEEE-754 rounding: coordinates are exact reals, and `atan2` and `hypot`
  are arbitrary functions, so a property that depends on their values (the
  actual range of `atan2`) is not stated.
- React update batching beyond one frame, and a second frame arriving
  before the first one's updates land: the model reads state at the start of
  each frame.
- The stale closure of `onResults` (registered once at line 576): in the
  running application the mode never leaves posture for frame processing,
  so `handleModeChange` has no effect on it and the exercise branches at
  lines 478 and 493 never run; the hold counter is read as 0 on every frame,
  so a bridge repetition never completes; the speech cooldown compares with
  0 and never holds speech back; and the spoken text is always "Your posture
  needs correction. Please sit up straight.". The model instead reads the
  state the previous frame left, so its hold, repetition and cooldown
  properties describe the code as it is evidently meant to run, not the
  deployed closure.
- The reset of `goodPosture` and `badPostureCount` on every render of
  `App` (lines 211 and 213): a frame handled by the latest render's closure
  would find no calibration frame and a zero counter after any re-render
  (after `setHoldTimer`, `setLastAudioFeedbackTime` or a changed
  `setPostureFeedback`). The model keeps both across frames, as the one
  registered closure does, while it reads the React state as the latest
  render would; the mixture is a choice, not a closure the code has.

=== FILE: corrections.dfy ===
/** The feedback phrases the three evaluators can emit, their exact wording,
    and the position of each one's check within its evaluator. */
module Corrections {

  import opened Strings

  datatype Correction =
    // posture (compared with the calibration frame)
    | LiftHead | LowerHead
    | RaiseLeftShoulder | RaiseRightShoulder
    | StraightenBack | RelaxBack
    | LeaningForward | LeaningBackward
    | StretchNeck
    // McKenzie press-up
    | LieFaceDown | StraightenArms | PushChestHigher | KeepHipsFlat | KeepNeckNeutral
    // bridging
    | LiftHips | KeepHipsLevel | KeepShouldersStable

  // The wording of each phrase. Long phrases are written as two literals
  // only to keep proofs about their characters small; the phrase is the
  // concatenation.
  const LiftHeadText: string := "Lift your head slightly"
  const LowerHeadText: string := "Lower your head slightly"
  const RaiseLeftShoulderText: string := "Level your shoulders " + "by raising your left shoulder"
  const RaiseRightShoulderText: string := "Level your shoulders " + "by raising your right shoulder"
  const StraightenBackText: string := "Straighten your back " + "by sitting up more"
  const RelaxBackText: string := "Relax your back slightly"
  const LeaningForwardText: string := "Sit back slightly, " + "you're leaning too far forward"
  const LeaningBackwardText: string := "Sit up slightly, " + "you're leaning too far backward"
  const StretchNeckText: string := "Relax your shoulders " + "and stretch your neck"
  const LieFaceDownText: string := "Lie face down on your stomach"
  const StraightenArmsText: string := "Straighten your arms " + "to push up your upper body"
  const PushChestHigherText: string := "Push up your chest higher"
  const KeepHipsFlatText: string := "Keep your hips flat on the ground"
  const KeepNeckNeutralText: string := "Keep your neck neutral, " + "look down at the floor"
  const LiftHipsText: string := "Lift your hips higher"
  const KeepHipsLevelText: string := "Keep your hips level"
  const KeepShouldersStableText: string := "Keep your shoulders " + "stable on the ground"

  /** The phrase shown, and spoken, for a correction. */
  function Text(c: Correction): string
  {
    match c
    case LiftHead => LiftHeadText
    case LowerHead => LowerHeadText
    case RaiseLeftShoulder => RaiseLeftShoulderText
    case RaiseRightShoulder => RaiseRightShoulderText
    case StraightenBack => StraightenBackText
    case RelaxBack => RelaxBackText
    case LeaningForward => LeaningForwardText
    case LeaningBackward => LeaningBackwardText
    case StretchNeck => StretchNeckText
    case LieFaceDown => LieFaceDownText
    case StraightenArms => StraightenArmsText
    case PushChestHigher => PushChestHigherText
    case KeepHipsFlat => KeepHipsFlatText
    case KeepNeckNeutral => KeepNeckNeutralText
    case LiftHips => LiftHipsText
    case KeepHipsLevel => KeepHipsLevelText
    case KeepShouldersStable => KeepShouldersStableText
  }

  /** The corrections each evaluator can emit. */
  predicate IsPosture(c: Correction)
  {
    || c == LiftHead || c == LowerHead || c == RaiseLeftShoulder || c == RaiseRightShoulder
    || c == StraightenBack || c == RelaxBack || c == LeaningForward || c == LeaningBackward
    || c == StretchNeck
  }

  predicate IsPressUp(c: Correction)
  {
    || c == LieFaceDown || c == StraightenArms || c == PushChestHigher || c == KeepHipsFlat
    || c == KeepNeckNeutral
  }

  predicate IsBridging(c: Correction)
  {
    c == LiftHips || c == KeepHipsLevel || c == KeepShouldersStable
  }

  /** The marker the frame processor searches the posture feedback for. */
  const GreatMarker: string := "Great posture!"

  /** The phrase the posture evaluator gives when no correction fired:
      "Great posture! Keep it up!". */
  const GreatPosture: string := GreatMarker + " Keep it up!"

  /** Position of a correction's check within its evaluator; the two
      phrases of one check share a position. */
  function Rank(c: Correction): nat
  {
    match c
    case LiftHead | LowerHead => 0
    case RaiseLeftShoulder | RaiseRightShoulder => 1
    case StraightenBack | RelaxBack => 2
    case LeaningForward | LeaningBackward => 3
    case StretchNeck => 4
    case LieFaceDown => 0
    case StraightenArms => 1
    case PushChestHigher => 2
    case KeepHipsFlat => 3
    case KeepNeckNeutral => 4
    case LiftHips => 0
    case KeepHipsLevel => 1
    case KeepShouldersStable => 2
  }

  /** Phrases appear in the order their checks run, at most one per check. */
  predicate Ordered(cs: seq<Correction>)
  {
    forall i, j :: 0 <= i < j < |cs| ==> Rank(cs[i]) < Rank(cs[j])
  }

  /** The output of one check: at most one phrase, at position `k`. */
  predicate AtRank(cs: seq<Correction>, k: nat)
  {
    |cs| <= 1 && forall c :: c in cs ==> Rank(c) == k
  }

  /** Placing the output of the check at position `k` in front of the
      outputs of the later checks keeps the phrases in check order. */
  lemma OrderedPrepend(a: seq<Correction>, k: nat, b: seq<Correction>)
    requires AtRank(a, k)
    requires Ordered(b)
    requires forall c :: c in b ==> Rank(c) > k
    ensures Ordered(a + b)
    ensures forall c :: c in a + b ==> Rank(c) >= k
  {
    if |a| == 1 {
      forall i, j | 0 <= i < j < |a + b|
        ensures Rank((a + b)[i]) < Rank((a + b)[j])
      {
        assert (a + b)[j] == b[j - 1];
        if i > 0 {
          assert (a + b)[i] == b[i - 1];
        } else {
          assert (a + b)[i] == a[0];
          assert b[j - 1] in b;
        }
      }
    } else {
      assert a + b == b;
    }
  }

  function Texts(cs: seq<Correction>): (ts: seq<string>)
    ensures |ts| == |cs|
    ensures forall k :: 0 <= k < |cs| ==> ts[k] == Text(cs[k])
  {
    seq(|cs|, k requires 0 <= k < |cs| => Text(cs[k]))
  }

  /** The characters correction phrases are written with: lower-case
      letters, the capitals that start phrases, blank, comma and apostrophe.
      Neither '.' nor 'G' is one of them. */
  predicate PhraseChar(ch: char)
  {
    || 'a' <= ch <= 'z'
    || ch == 'L' || ch == 'R' || ch == 'S' || ch == 'P' || ch == 'K'
    || ch == ' ' || ch == ',' || ch == '\''
  }

  // The phrases are checked a few at a time to keep each proof small.

  lemma HeadTextAlphabet()
    ensures forall ch :: ch in LiftHeadText ==> PhraseChar(ch)
    ensures forall ch :: ch in LowerHeadText ==> PhraseChar(ch)
  {
  }

  lemma ShoulderTextAlphabet()
    ensures forall ch :: ch in RaiseLeftShoulderText ==> PhraseChar(ch)
    ensures forall ch :: ch in RaiseRightShoulderText ==> PhraseChar(ch)
  {
  }

  lemma BackTextAlphabet()
    ensures forall ch :: ch in StraightenBackText ==> PhraseChar(ch)
    ensures forall ch :: ch in RelaxBackText ==> PhraseChar(ch)
    ensures forall ch :: ch in StretchNeckText ==> PhraseChar(ch)
  {
  }

  lemma LeanTextAlphabet()
    ensures forall ch :: ch in LeaningForwardText ==> PhraseChar(ch)
    ensures forall ch :: ch in LeaningBackwardText ==> PhraseChar(ch)
  {
  }

  lemma PressUpTextAlphabet()
    ensures forall ch :: ch in LieFaceDownText ==> PhraseChar(ch)
    ensures forall ch :: ch in StraightenArmsText ==> PhraseChar(ch)
    ensures forall ch :: ch in PushChestHigherText ==> PhraseChar(ch)
  {
  }

  lemma PressUpFormTextAlphabet()
    ensures forall ch :: ch in KeepHipsFlatText ==> PhraseChar(ch)
    ensures forall ch :: ch in KeepNeckNeutralText ==> PhraseChar(ch)
  {
  }

  lemma BridgingTextAlphabet()
    ensures forall ch :: ch in LiftHipsText ==> PhraseChar(ch)
    ensures forall ch :: ch in KeepHipsLevelText ==> PhraseChar(ch)
    ensures forall ch :: ch in KeepShouldersStableText ==> PhraseChar(ch)
  {
  }

  /** No phrase contains a '.', so the separator marks phrase boundaries,
      and none contains a capital 'G', the first letter of the good-posture
      marker. */
  lemma TextShape(c: Correction)
    ensures |Text(c)| > 0
    ensures '.' !in Text(c)
    ensures 'G' !in Text(c)
  {
    HeadTextAlphabet();
    ShoulderTextAlphabet();
    BackTextAlphabet();
    LeanTextAlphabet();
    PressUpTextAlphabet();
    PressUpFormTextAlphabet();
    BridgingTextAlphabet();
  }

  /** The feedback string for a list of corrections, `feedback.join(". ")`.
      It is empty exactly when nothing fired, it never contains a capital
      'G', every '.' in it is followed by a blank, and the corrections can
      be read back from it. */
  function Render(cs: seq<Correction>): (s: string)
    ensures s == "" <==> |cs| == 0
    ensures 'G' !in s
    ensures DotsSeparate(s)
    ensures |cs| > 0 ==> Split(s) == Texts(cs)
  {
    var ts := Texts(cs);
    forall k | 0 <= k < |ts|
      ensures |ts[k]| > 0 && '.' !in ts[k] && 'G' !in ts[k]
    {
      TextShape(cs[k]);
    }
    JoinEmpty(ts);
    CharNotInJoin(ts, 'G');
    JoinDotsSeparate(ts);
    if |cs| > 0 then SplitJoin(ts); Join(ts) else Join(ts)
  }

  /** The good-posture phrase is a single phrase that carries the marker. */
  lemma GreatPostureShape()
    ensures Split(GreatPosture) == [GreatPosture]
    ensures DotsSeparate(GreatPosture)
    ensures Contains(GreatPosture, GreatMarker)
    ensures GreatPosture != ""
  {
    assert '.' !in GreatMarker;
    assert '.' !in " Keep it up!";
    SplitJoin([GreatPosture]);
    assert GreatPosture[0..|GreatMarker|] == GreatMarker;
    assert OccursAt(GreatPosture, GreatMarker, 0);
  }

  /** Joined corrections never carry the good-posture marker: they have no
      'G', the marker's first letter. */
  lemma RenderLacksMarker(cs: seq<Correction>)
    ensures !Contains(Render(cs), GreatMarker)
  {
    if Contains(Render(cs), GreatMarker) {
      ContainsFirstChar(Render(cs), GreatMarker);
    }
  }
}

=== FILE: exercises.dfy ===
/** The two exercise evaluators (`calculateMcKenzieAccuracy`,
    `calculateBridgingAccuracy`): one frame against absolute thresholds, no
    calibration. Each returns `None` for a missing frame (the source's
    `null`), the empty string for a passing frame, or the joined phrases. */
module Exercises {

  import opened Wrappers
  import opened Strings
  import opened Landmarks
  import opened Corrections

  // ----- McKenzie press-up -----

  /** Lying prone: shoulders not above the hips on screen. */
  predicate Prone(f: Frame)
  {
    ShoulderMid(f).y >= HipMid(f).y
  }

  /** Angle of the right upper arm (shoulder to elbow). */
  function ElbowAngle(f: Frame, m: MathLib): real
  {
    Abs(m.atan2(f[RightElbow].y - f[RightShoulder].y, f[RightElbow].x - f[RightShoulder].x))
  }

  /** Angle of the neck (shoulder midpoint to nose). */
  function NeckAngle(f: Frame, m: MathLib): real
  {
    var shoulders := ShoulderMid(f);
    Abs(m.atan2(f[Nose].y - shoulders.y, f[Nose].x - shoulders.x))
  }

  function ArmsCheck(f: Frame, m: MathLib): (r: seq<Correction>)
    ensures AtRank(r, 1)
    ensures forall c :: c in r ==> c == StraightenArms
    ensures StraightenArms in r <==> ElbowAngle(f, m) > 0.3
  {
    if ElbowAngle(f, m) > 0.3 then [StraightenArms] else []
  }

  /** The elevation check: shoulders must be more than 0.2 above the hips. */
  function ChestCheck(f: Frame): (r: seq<Correction>)
    ensures AtRank(r, 2)
    ensures forall c :: c in r ==> c == PushChestHigher
    ensures PushChestHigher in r <==> ShoulderMid(f).y - HipMid(f).y > -0.2
  {
    var upperBodyElevation := ShoulderMid(f).y - HipMid(f).y;
    if upperBodyElevation > -0.2 then [PushChestHigher] else []
  }

  function HipsFlatCheck(f: Frame): (r: seq<Correction>)
    ensures AtRank(r, 3)
    ensures forall c :: c in r ==> c == KeepHipsFlat
    ensures KeepHipsFlat in r <==> Abs(f[LeftHip].y - f[RightHip].y) > 0.05
  {
    if Abs(f[LeftHip].y - f[RightHip].y) > 0.05 then [KeepHipsFlat] else []
  }

  function NeckNeutralCheck(f: Frame, m: MathLib): (r: seq<Correction>)
    ensures AtRank(r, 4)
    ensures forall c :: c in r ==> c == KeepNeckNeutral
    ensures KeepNeckNeutral in r <==> NeckAngle(f, m) > 0.3
  {
    if NeckAngle(f, m) > 0.3 then [KeepNeckNeutral] else []
  }

  /** The press-up corrections. A frame that is not prone gets the single
      phrase "Lie face down on your stomach" and no other check runs. On a
      prone frame the shoulders are at or below the hips, so the elevation
      check always fires: the list is never empty. */
  function PressUpCorrections(f: Frame, m: MathLib): (r: seq<Correction>)
    ensures Ordered(r)
    ensures forall c :: c in r ==> IsPressUp(c)
    ensures r == [LieFaceDown] <==> !Prone(f)
    ensures Prone(f) ==> PushChestHigher in r
    ensures r != []
  {
    if ShoulderMid(f).y < HipMid(f).y then
      [LieFaceDown]
    else
      var arms := ArmsCheck(f, m);
      var chest := ChestCheck(f);
      var hips := HipsFlatCheck(f);
      var neck := NeckNeutralCheck(f, m);
      OrderedPrepend(hips, 3, neck);
      OrderedPrepend(chest, 2, hips + neck);
      OrderedPrepend(arms, 1, chest + (hips + neck));
      var r := arms + (chest + (hips + neck));
      assert LieFaceDown !in r;
      r
  }

  /** On a prone frame, which form phrases fire, stated on the coordinates. */
  lemma PressUpPhrases(f: Frame, m: MathLib)
    requires Prone(f)
    ensures var r := PressUpCorrections(f, m);
      && LieFaceDown !in r
      && (StraightenArms in r <==> ElbowAngle(f, m) > 0.3)
      && (KeepHipsFlat in r <==> Abs(f[LeftHip].y - f[RightHip].y) > 0.05)
      && (KeepNeckNeutral in r <==> NeckAngle(f, m) > 0.3)
  {
  }

  /** `calculateMcKenzieAccuracy`. A missing frame gives `None`; otherwise
      the joined phrases, which are never the passing empty string. */
  function PressUpFeedback(landmarks: Option<Frame>, m: MathLib): (r: Option<string>)
    ensures r.None? <==> landmarks.None?
    ensures r != Some("")
    ensures landmarks.Some? && !Prone(landmarks.value) ==> r == Some(LieFaceDownText)
    ensures r.Some? ==> DotsSeparate(r.value)
    ensures landmarks.Some? ==> Split(r.value) == Texts(PressUpCorrections(landmarks.value, m))
  {
    match landmarks
    case None => None
    case Some(f) =>
      var cs := PressUpCorrections(f, m);
      assert Render([LieFaceDown]) == LieFaceDownText;
      Some(Render(cs))
  }

  // ----- Bridging -----

  /** The hips lifted at least 0.1 away from the shoulders, hips level and
      shoulders level within 0.05: the frame passes. */
  predicate BridgeHeld(f: Frame)
  {
    && Abs(HipMid(f).y - ShoulderMid(f).y) >= 0.1
    && Abs(f[LeftHip].y - f[RightHip].y) <= 0.05
    && Abs(f[LeftShoulder].y - f[RightShoulder].y) <= 0.05
  }

  function LiftHipsCheck(f: Frame): (r: seq<Correction>)
    ensures AtRank(r, 0)
    ensures forall c :: c in r ==> c == LiftHips
    ensures LiftHips in r <==> Abs(HipMid(f).y - ShoulderMid(f).y) < 0.1
  {
    var hipHeight := HipMid(f).y;
    var shoulderHeight := ShoulderMid(f).y;
    if Abs(hipHeight - shoulderHeight) < 0.1 then [LiftHips] else []
  }

  function HipsLevelCheck(f: Frame): (r: seq<Correction>)
    ensures AtRank(r, 1)
    ensures forall c :: c in r ==> c == KeepHipsLevel
    ensures KeepHipsLevel in r <==> Abs(f[LeftHip].y - f[RightHip].y) > 0.05
  {
    if Abs(f[LeftHip].y - f[RightHip].y) > 0.05 then [KeepHipsLevel] else []
  }

  function ShouldersStableCheck(f: Frame): (r: seq<Correction>)
    ensures AtRank(r, 2)
    ensures forall c :: c in r ==> c == KeepShouldersStable
    ensures KeepShouldersStable in r <==> Abs(f[LeftShoulder].y - f[RightShoulder].y) > 0.05
  {
    if Abs(f[LeftShoulder].y - f[RightShoulder].y) > 0.05 then [KeepShouldersStable] else []
  }

  /** The bridging corrections, in the order hips lifted, hips level,
      shoulders stable; none at all exactly when the bridge is held. */
  function BridgingCorrections(f: Frame): (r: seq<Correction>)
    ensures Ordered(r)
    ensures forall c :: c in r ==> IsBridging(c)
    ensures r == [] <==> BridgeHeld(f)
  {
    var lift := LiftHipsCheck(f);
    var level := HipsLevelCheck(f);
    var stable := ShouldersStableCheck(f);
    OrderedPrepend(level, 1, stable);
    OrderedPrepend(lift, 0, level + stable);
    lift + (level + stable)
  }

  lemma BridgingPhrases(f: Frame)
    ensures var r := BridgingCorrections(f);
      && (LiftHips in r <==> Abs(HipMid(f).y - ShoulderMid(f).y) < 0.1)
      && (KeepHipsLevel in r <==> Abs(f[LeftHip].y - f[RightHip].y) > 0.05)
      && (KeepShouldersStable in r <==> Abs(f[LeftShoulder].y - f[RightShoulder].y) > 0.05)
  {
  }

  /** `calculateBridgingAccuracy`. A missing frame gives `None`; a held
      bridge, and only a held bridge, gives the empty string. */
  function BridgingFeedback(landmarks: Option<Frame>): (r: Option<string>)
    ensures r.None? <==> landmarks.None?
    ensures r == Some("") <==> landmarks.Some? && BridgeHeld(landmarks.value)
    ensures r.Some? ==> DotsSeparate(r.value)
    ensures r.Some? && r.value != "" ==> Split(r.value) == Texts(BridgingCorrections(landmarks.value))
  {
    match landmarks
    case None => None
    case Some(f) => Some(Render(BridgingCorrections(f)))
  }
}

=== FILE: landmarks.dfy ===
/** The landmark frame every evaluator reads: the 33 body points the pose
    estimator reports for one video frame, addressed by fixed indices. */
module Landmarks {

  /** A body point: normalised image position (x to the right, y downward,
      both in 0..1), depth, and the estimator's confidence. */
  datatype Landmark = Landmark(x: real, y: real, z: real, visibility: real)

  const FrameSize: nat := 33

  /** One frame of landmarks. A frame of any other length is a caller error,
      so it is excluded by the type rather than handled. */
  type Frame = f: seq<Landmark> | |f| == FrameSize
    witness seq(FrameSize, _ => Landmark(0.0, 0.0, 0.0, 0.0))

  // Indices fixed by the pose estimator's body model.
  const Nose: nat := 0
  const LeftShoulder: nat := 11
  const RightShoulder: nat := 12
  const RightElbow: nat := 14
  const LeftHip: nat := 23
  const RightHip: nat := 24

  datatype Point = Point(x: real, y: real)

  function Midpoint(a: Landmark, b: Landmark): Point
  {
    Point((a.x + b.x) / 2.0, (a.y + b.y) / 2.0)
  }

  function ShoulderMid(f: Frame): Point
  {
    Midpoint(f[LeftShoulder], f[RightShoulder])
  }

  function HipMid(f: Frame): Point
  {
    Midpoint(f[LeftHip], f[RightHip])
  }

  /** `Math.abs`. */
  function Abs(x: real): real
  {
    if x < 0.0 then -x else x
  }

  /** The two transcendental functions the evaluators call, `Math.atan2`
      and `Math.hypot`. They are left uninterpreted: every statement about
      the evaluators holds for whatever functions are passed here, and the
      only fact ever assumed about them is `HypotNonNegative`. */
  datatype MathLib = MathLib(atan2: (real, real) -> real, hypot: (real, real) -> real)

  ghost predicate HypotNonNegative(m: MathLib)
  {
    forall a, b :: m.hypot(a, b) >= 0.0
  }
}

=== FILE: posture.dfy ===
/** The posture evaluator (`getPostureFeedback`): compares the live frame
    with the calibration frame through five threshold checks and returns the
    corrections that fired, joined with ". ", or the good-posture phrase. */
module Posture {

  import opened Strings
  import opened Landmarks
  import opened Corrections

  /** Head height: the nose lower than at calibration (larger y) asks to lift
      the head, higher asks to lower it; never both. */
  function HeadCheck(cur: Frame, cal: Frame): (r: seq<Correction>)
    ensures AtRank(r, 0)
    ensures forall c :: c in r ==> c == LiftHead || c == LowerHead
    ensures LiftHead in r <==> cur[Nose].y - cal[Nose].y > 0.03
    ensures LowerHead in r <==> cur[Nose].y - cal[Nose].y < -0.03
  {
    var headYDiff := cur[Nose].y - cal[Nose].y;
    if headYDiff > 0.03 then [LiftHead]
    else if headYDiff < -0.03 then [LowerHead]
    else []
  }

  /** Shoulder level, read from the live frame alone: when the shoulders
      differ in height by more than 0.02, the one lower on screen (larger y)
      is the one to raise. */
  function ShoulderCheck(cur: Frame): (r: seq<Correction>)
    ensures AtRank(r, 1)
    ensures forall c :: c in r ==> c == RaiseLeftShoulder || c == RaiseRightShoulder
    ensures RaiseLeftShoulder in r <==>
      Abs(cur[LeftShoulder].y - cur[RightShoulder].y) > 0.02 && cur[LeftShoulder].y > cur[RightShoulder].y
    ensures RaiseRightShoulder in r <==>
      Abs(cur[LeftShoulder].y - cur[RightShoulder].y) > 0.02 && cur[LeftShoulder].y < cur[RightShoulder].y
  {
    if Abs(cur[LeftShoulder].y - cur[RightShoulder].y) > 0.02 then
      if cur[LeftShoulder].y > cur[RightShoulder].y then [RaiseLeftShoulder]
      else [RaiseRightShoulder]
    else []
  }

  /** The angle of the line from the shoulder midpoint to the hip midpoint.
      The source computes it twice per frame with the same arguments (once
      for the back check, once for the lean check); both read this. */
  function BackAngle(f: Frame, m: MathLib): real
  {
    var shoulders := ShoulderMid(f);
    var hips := HipMid(f);
    m.atan2(hips.y - shoulders.y, hips.x - shoulders.x)
  }

  /** Back straightness: an angle more than 0.1 above the calibrated one asks
      to straighten the back, more than 0.1 below asks to relax it. */
  function BackCheck(cur: Frame, cal: Frame, m: MathLib): (r: seq<Correction>)
    ensures AtRank(r, 2)
    ensures forall c :: c in r ==> c == StraightenBack || c == RelaxBack
    ensures StraightenBack in r <==> BackAngle(cur, m) - BackAngle(cal, m) > 0.1
    ensures RelaxBack in r <==> BackAngle(cal, m) - BackAngle(cur, m) > 0.1
  {
    var backAngle := BackAngle(cur, m);
    var goodBackAngle := BackAngle(cal, m);
    if Abs(backAngle - goodBackAngle) > 0.1 then
      if backAngle > goodBackAngle then [StraightenBack] else [RelaxBack]
    else []
  }

  /** Lean: the same angle pair with a one-sided threshold each way. */
  function LeanCheck(cur: Frame, cal: Frame, m: MathLib): (r: seq<Correction>)
    ensures AtRank(r, 3)
    ensures forall c :: c in r ==> c == LeaningForward || c == LeaningBackward
    ensures LeaningForward in r <==> BackAngle(cur, m) - BackAngle(cal, m) > 0.1
    ensures LeaningBackward in r <==> BackAngle(cal, m) - BackAngle(cur, m) > 0.1
  {
    var shoulderToHipAngle := BackAngle(cur, m);
    var goodShoulderToHipAngle := BackAngle(cal, m);
    if shoulderToHipAngle - goodShoulderToHipAngle > 0.1 then [LeaningForward]
    else if goodShoulderToHipAngle - shoulderToHipAngle > 0.1 then [LeaningBackward]
    else []
  }

  /** Distance from the nose to the shoulder midpoint. */
  function NeckLength(f: Frame, m: MathLib): real
  {
    var shoulders := ShoulderMid(f);
    m.hypot(f[Nose].x - shoulders.x, f[Nose].y - shoulders.y)
  }

  /** Hunching: the neck shorter than 95% of its calibrated length. */
  function NeckCheck(cur: Frame, cal: Frame, m: MathLib): (r: seq<Correction>)
    ensures AtRank(r, 4)
    ensures forall c :: c in r ==> c == StretchNeck
    ensures StretchNeck in r <==> NeckLength(cur, m) < NeckLength(cal, m) * 0.95
  {
    if NeckLength(cur, m) < NeckLength(cal, m) * 0.95 then [StretchNeck] else []
  }

  /** The corrections that fire for `cur` against calibration `cal`: the
      outputs of the five checks, in check order. */
  function PostureCorrections(cur: Frame, cal: Frame, m: MathLib): (r: seq<Correction>)
    ensures Ordered(r)
    ensures forall c :: c in r ==> IsPosture(c)
  {
    var head := HeadCheck(cur, cal);
    var shoulders := ShoulderCheck(cur);
    var back := BackCheck(cur, cal, m);
    var lean := LeanCheck(cur, cal, m);
    var neck := NeckCheck(cur, cal, m);
    OrderedPrepend(lean, 3, neck);
    OrderedPrepend(back, 2, lean + neck);
    OrderedPrepend(shoulders, 1, back + (lean + neck));
    OrderedPrepend(head, 0, shoulders + (back + (lean + neck)));
    head + (shoulders + (back + (lean + neck)))
  }

  // Which phrases the posture evaluator emits, stated on the coordinates.

  /** A phrase is emitted exactly when the check that owns it emits it. */
  lemma PostureMember(cur: Frame, cal: Frame, m: MathLib, c: Correction)
    ensures c in PostureCorrections(cur, cal, m) <==>
      || c in HeadCheck(cur, cal) || c in ShoulderCheck(cur) || c in BackCheck(cur, cal, m)
      || c in LeanCheck(cur, cal, m) || c in NeckCheck(cur, cal, m)
  {
  }

  /** The head phrases never fire together. */
  lemma HeadPhrases(cur: Frame, cal: Frame, m: MathLib)
    ensures var r := PostureCorrections(cur, cal, m);
      && (LiftHead in r <==> cur[Nose].y - cal[Nose].y > 0.03)
      && (LowerHead in r <==> cur[Nose].y - cal[Nose].y < -0.03)
      && !(LiftHead in r && LowerHead in r)
  {
    PostureMember(cur, cal, m, LiftHead);
    PostureMember(cur, cal, m, LowerHead);
  }

  /** The shoulder phrase names the side that is lower on screen. */
  lemma ShoulderPhrases(cur: Frame, cal: Frame, m: MathLib)
    ensures var r := PostureCorrections(cur, cal, m);
      && (RaiseLeftShoulder in r <==>
           Abs(cur[LeftShoulder].y - cur[RightShoulder].y) > 0.02 && cur[LeftShoulder].y > cur[RightShoulder].y)
      && (RaiseRightShoulder in r <==>
           Abs(cur[LeftShoulder].y - cur[RightShoulder].y) > 0.02 && cur[LeftShoulder].y < cur[RightShoulder].y)
  {
    PostureMember(cur, cal, m, RaiseLeftShoulder);
    PostureMember(cur, cal, m, RaiseRightShoulder);
  }

  /** The shoulder phrase depends on the live frame only: any two
      calibration frames give the same verdict. */
  lemma ShoulderIgnoresCalibration(cur: Frame, cal: Frame, cal': Frame, m: MathLib)
    ensures RaiseLeftShoulder in PostureCorrections(cur, cal, m) <==>
      RaiseLeftShoulder in PostureCorrections(cur, cal', m)
    ensures RaiseRightShoulder in PostureCorrections(cur, cal, m) <==>
      RaiseRightShoulder in PostureCorrections(cur, cal', m)
  {
    ShoulderPhrases(cur, cal, m);
    ShoulderPhrases(cur, cal', m);
  }

  /** Back and lean read the same angle pair, so each back phrase fires
      exactly when the lean phrase of the same direction does. */
  lemma BackAndLeanPhrases(cur: Frame, cal: Frame, m: MathLib)
    ensures var r := PostureCorrections(cur, cal, m);
      && (StraightenBack in r <==> BackAngle(cur, m) - BackAngle(cal, m) > 0.1)
      && (RelaxBack in r <==> BackAngle(cal, m) - BackAngle(cur, m) > 0.1)
      && (StraightenBack in r <==> LeaningForward in r)
      && (RelaxBack in r <==> LeaningBackward in r)
  {
    PostureMember(cur, cal, m, StraightenBack);
    PostureMember(cur, cal, m, RelaxBack);
    PostureMember(cur, cal, m, LeaningForward);
    PostureMember(cur, cal, m, LeaningBackward);
  }

  lemma NeckPhrase(cur: Frame, cal: Frame, m: MathLib)
    ensures StretchNeck in PostureCorrections(cur, cal, m) <==>
      NeckLength(cur, m) < NeckLength(cal, m) * 0.95
  {
    PostureMember(cur, cal, m, StretchNeck);
  }

  /** `getPostureFeedback`: the joined corrections, or the good-posture
      phrase alone when none fired. The result is never empty, it contains
      the marker "Great posture!" exactly when nothing fired, every '.' is a
      separator's, and the phrases can be read back from it. */
  function PostureFeedback(cur: Frame, cal: Frame, m: MathLib): (r: string)
    ensures r != ""
    ensures r == GreatPosture <==> PostureCorrections(cur, cal, m) == []
    ensures Contains(r, GreatMarker) <==> PostureCorrections(cur, cal, m) == []
    ensures DotsSeparate(r)
    ensures Split(r) ==
      if PostureCorrections(cur, cal, m) == [] then [GreatPosture]
      else Texts(PostureCorrections(cur, cal, m))
  {
    var cs := PostureCorrections(cur, cal, m);
    GreatPostureShape();
    if cs == [] then GreatPosture
    else RenderLacksMarker(cs); Render(cs)
  }

  /** A frame compared with itself passes every check that reads the
      calibration frame; with level shoulders the verdict is the
      good-posture phrase. The neck check needs lengths to be non-negative. */
  lemma SameFrameIsGreat(f: Frame, m: MathLib)
    requires HypotNonNegative(m)
    requires Abs(f[LeftShoulder].y - f[RightShoulder].y) <= 0.02
    ensures PostureCorrections(f, f, m) == []
    ensures PostureFeedback(f, f, m) == GreatPosture
  {
    assert NeckLength(f, m) >= 0.0;
  }

  /** Uneven shoulders are reported even against a calibration frame that
      is the live frame itself. */
  lemma SameFrameUnevenShoulders(f: Frame, m: MathLib)
    requires Abs(f[LeftShoulder].y - f[RightShoulder].y) > 0.02
    ensures PostureFeedback(f, f, m) != GreatPosture
  {
    ShoulderPhrases(f, f, m);
  }
}

=== FILE: replay.dfy ===
/** Runs of the frame processor over a sequence of frames, and what
    persistent conditions do to the counters over many frames. */
module Replay {

  import opened Wrappers
  import opened Landmarks
  import opened Posture
  import opened Exercises
  import opened Session

  /** Feeds the frames to `step` in order, collecting the events. The
      general lemmas below are proved for any `step` and then applied to
      the frame processor. */
  function Fold(step: (State, FrameInput) -> Outcome, s: State, inputs: seq<FrameInput>): Outcome
    decreases |inputs|
  {
    if |inputs| == 0 then Outcome(s, [])
    else
      var first := step(s, inputs[0]);
      var rest := Fold(step, first.state, inputs[1..]);
      Outcome(rest.state, first.events + rest.events)
  }

  function Processor(m: MathLib): (State, FrameInput) -> Outcome
  {
    (s: State, input: FrameInput) => Step(s, input, m)
  }

  /** The frame processor run over `inputs`. */
  function Run(s: State, inputs: seq<FrameInput>, m: MathLib): (o: Outcome)
    ensures Inv(s) ==> Inv(o.state)
    ensures o.state.mode == s.mode
  {
    FoldKeeps(Processor(m), s, inputs);
    Fold(Processor(m), s, inputs)
  }

  lemma {:induction false} FoldKeeps(
    step: (State, FrameInput) -> Outcome, s: State, inputs: seq<FrameInput>)
    requires forall x: State, i: FrameInput :: Inv(x) ==> Inv(step(x, i).state)
    requires forall x: State, i: FrameInput :: step(x, i).state.mode == x.mode
    ensures Inv(s) ==> Inv(Fold(step, s, inputs).state)
    ensures Fold(step, s, inputs).state.mode == s.mode
    decreases |inputs|
  {
    if |inputs| > 0 {
      FoldKeeps(step, step(s, inputs[0]).state, inputs[1..]);
    }
  }

  /** Running two stretches of frames one after the other is running their
      concatenation. */
  lemma {:induction false} FoldAppend(
    step: (State, FrameInput) -> Outcome, s: State, a: seq<FrameInput>, b: seq<FrameInput>)
    ensures Fold(step, s, a + b).state == Fold(step, Fold(step, s, a).state, b).state
    ensures Fold(step, s, a + b).events == Fold(step, s, a).events + Fold(step, Fold(step, s, a).state, b).events
    decreases |a|
  {
    if |a| == 0 {
      assert a + b == b;
    } else {
      assert (a + b)[0] == a[0];
      assert (a + b)[1..] == a[1..] + b;
      FoldAppend(step, step(s, a[0]).state, a[1..], b);
    }
  }

  /** The bad-frame counter after `n` rises by `d` from `b`. */
  function Count(b: nat, d: nat, n: nat): nat
    decreases n
  {
    if n == 0 then b else Count(Bump(b, d), d, n - 1)
  }

  /** The notifications fired over `n` rises by `d` from `b`. */
  function FiredCount(b: nat, d: nat, n: nat): nat
    decreases n
  {
    if n == 0 then 0 else Fired(b, d) + FiredCount(Bump(b, d), d, n - 1)
  }

  /** On every input, from every state in `Keeps`, the step raises the
      bad-frame counter by `d` (firing at the limit) and stays in `Keeps`. */
  ghost predicate RaisesBy(
    step: (State, FrameInput) -> Outcome, Keeps: State -> bool, inputs: seq<FrameInput>, d: nat)
  {
    forall x: State, k: nat {:trigger step(x, inputs[k])} | k < |inputs| && Keeps(x) ::
      && Keeps(step(x, inputs[k]).state)
      && step(x, inputs[k]).state.badFrames == Bump(x.badFrames, d)
      && Notifications(step(x, inputs[k]).events) == Fired(x.badFrames, d)
  }

  /** If every step raises the counter by `d` from states in `Keeps`, and
      keeps them there, the counter and the notifications after a run are
      those of `Count` and `FiredCount`. */
  lemma {:induction false} FoldCounter(
    step: (State, FrameInput) -> Outcome, Keeps: State -> bool,
    s: State, inputs: seq<FrameInput>, d: nat)
    requires Keeps(s) && RaisesBy(step, Keeps, inputs, d)
    ensures Keeps(Fold(step, s, inputs).state)
    ensures Fold(step, s, inputs).state.badFrames == Count(s.badFrames, d, |inputs|)
    ensures Notifications(Fold(step, s, inputs).events) == FiredCount(s.badFrames, d, |inputs|)
    decreases |inputs|
  {
    if |inputs| > 0 {
      var o := step(s, inputs[0]);
      var rest := inputs[1..];
      assert Keeps(o.state) && o.state.badFrames == Bump(s.badFrames, d)
        && Notifications(o.events) == Fired(s.badFrames, d);
      assert RaisesBy(step, Keeps, rest, d) by {
        forall x: State, k: nat | k < |rest| && Keeps(x)
          ensures && Keeps(step(x, rest[k]).state)
            && step(x, rest[k]).state.badFrames == Bump(x.badFrames, d)
            && Notifications(step(x, rest[k]).events) == Fired(x.badFrames, d)
        {
          assert rest[k] == inputs[k + 1];
        }
      }
      FoldCounter(step, Keeps, o.state, rest, d);
      CountsAppend(o.events, Fold(step, o.state, rest).events);
    }
  }

  /** Rising by one or by two from a multiple of the rise below the limit,
      the total rise splits into whole laps of the limit, one notification
      each, and the counter left over: the notifications are the quotient of
      the total by the limit and the counter the remainder. */
  lemma {:induction false} CountTotal(b: nat, d: nat, n: nat)
    requires d == 1 || d == 2
    requires b < BadFrameLimit && b % d == 0
    ensures Count(b, d, n) < BadFrameLimit
    ensures b + d * n == FiredCount(b, d, n) * BadFrameLimit + Count(b, d, n)
    decreases n
  {
    if n > 0 {
      BumpLap(b, d);
      CountTotal(Bump(b, d), d, n - 1);
      assert d * n == d * (n - 1) + d;
    }
  }

  /** One rise either stays below the limit or lands exactly on it, which
      clears the counter and fires one notification. */
  lemma BumpLap(b: nat, d: nat)
    requires d == 1 || d == 2
    requires b < BadFrameLimit && b % d == 0
    ensures Bump(b, d) < BadFrameLimit && Bump(b, d) % d == 0
    ensures Bump(b, d) + Fired(b, d) * BadFrameLimit == b + d
  {
  }

  lemma CountByOne(b: nat, n: nat)
    requires b < BadFrameLimit
    ensures Count(b, 1, n) < BadFrameLimit
    ensures b + n == FiredCount(b, 1, n) * BadFrameLimit + Count(b, 1, n)
  {
    CountTotal(b, 1, n);
  }

  lemma CountByTwo(b: nat, n: nat)
    requires b < BadFrameLimit && b % 2 == 0
    ensures Count(b, 2, n) < BadFrameLimit
    ensures b + 2 * n == FiredCount(b, 2, n) * BadFrameLimit + Count(b, 2, n)
  {
    CountTotal(b, 2, n);
  }

  /** Every input carries the same frame. */
  predicate AllShow(inputs: seq<FrameInput>, f: Frame)
  {
    forall k :: 0 <= k < |inputs| ==> inputs[k].pose == Some(f)
  }

  /** Held bridge frames below the limit each add one to the hold counter
      and complete no repetition. */
  lemma {:induction false} BridgeHoldAccumulates(s: State, inputs: seq<FrameInput>, f: Frame, m: MathLib)
    requires s.mode == BridgingMode && BridgeHeld(f) && AllShow(inputs, f)
    requires s.hold + |inputs| <= HoldLimit + 1
    ensures Run(s, inputs, m).state.hold == s.hold + |inputs|
    ensures Run(s, inputs, m).state.reps == s.reps
    decreases |inputs|
  {
    if |inputs| > 0 {
      BridgingStep(s, inputs[0], f, m);
      BridgeHoldAccumulates(Step(s, inputs[0], m).state, inputs[1..], f, m);
    }
  }

  /** From an empty hold, 91 held frames complete no repetition; the 92nd
      completes exactly one and clears the hold counter (the counter is read
      before the frame's own increment). */
  lemma BridgeRepetition(s: State, inputs: seq<FrameInput>, f: Frame, m: MathLib)
    requires s.mode == BridgingMode && BridgeHeld(f) && AllShow(inputs, f)
    requires s.hold == 0 && |inputs| == HoldLimit + 2
    ensures Run(s, inputs[..HoldLimit + 1], m).state.reps == s.reps
    ensures Run(s, inputs, m).state.reps == s.reps + 1
    ensures Run(s, inputs, m).state.hold == 0
  {
    var held := inputs[..HoldLimit + 1];
    var last := inputs[HoldLimit + 1..];
    assert inputs == held + last;
    BridgeHoldAccumulates(s, held, f, m);
    FoldAppend(Processor(m), s, held, last);
    var mid := Run(s, held, m).state;
    BridgingStep(mid, last[0], f, m);
    assert last[1..] == [];
  }

  /** Every frame of a persistent bad verdict raises the counter by one in
      a calibrated exercise mode. */
  lemma ExerciseBadFrames(inputs: seq<FrameInput>, m: MathLib)
    requires forall k :: 0 <= k < |inputs| ==> inputs[k].pose.Some? && inputs[k].badPosture
    ensures RaisesBy(Processor(m), CalibratedExercise, inputs, 1)
  {
    forall x: State, k: nat | k < |inputs| && CalibratedExercise(x)
      ensures && CalibratedExercise(Processor(m)(x, inputs[k]).state)
        && Processor(m)(x, inputs[k]).state.badFrames == Bump(x.badFrames, 1)
        && Notifications(Processor(m)(x, inputs[k]).events) == Fired(x.badFrames, 1)
    {
      ExerciseBadFrame(x, inputs[k], m);
    }
  }

  /** In an exercise mode with a calibration frame, a bad external verdict
      on every frame raises the bad-frame counter by one per frame. */
  lemma ExerciseRunCount(s: State, inputs: seq<FrameInput>, m: MathLib)
    requires CalibratedExercise(s)
    requires forall k :: 0 <= k < |inputs| ==> inputs[k].pose.Some? && inputs[k].badPosture
    ensures Run(s, inputs, m).state.badFrames == Count(s.badFrames, 1, |inputs|)
    ensures Notifications(Run(s, inputs, m).events) == FiredCount(s.badFrames, 1, |inputs|)
  {
    ExerciseBadFrames(inputs, m);
    FoldCounter(Processor(m), CalibratedExercise, s, inputs, 1);
  }

  /** In an exercise mode with a calibration frame, a bad external verdict
      on every frame notifies once every 60 frames: after n frames the
      notifications are the quotient of the starting count plus n by 60 and
      the counter is the remainder. */
  lemma PersistentBadPosture(s: State, inputs: seq<FrameInput>, m: MathLib)
    requires CalibratedExercise(s) && s.badFrames < BadFrameLimit
    requires forall k :: 0 <= k < |inputs| ==> inputs[k].pose.Some? && inputs[k].badPosture
    ensures Run(s, inputs, m).state.badFrames < BadFrameLimit
    ensures s.badFrames + |inputs|
      == Notifications(Run(s, inputs, m).events) * BadFrameLimit + Run(s, inputs, m).state.badFrames
  {
    ExerciseRunCount(s, inputs, m);
    CountByOne(s.badFrames, |inputs|);
  }

  /** Posture mode with the calibration frame `cal`. */
  function CalibratedPosture(cal: Frame): State -> bool
  {
    (x: State) => x.mode == PostureMode && x.calibration == Some(cal)
  }

  /** Every frame of a persistent bad verdict, with a correction found,
      raises the counter by two in posture mode. */
  lemma PostureBadFrames(inputs: seq<FrameInput>, cal: Frame, m: MathLib)
    requires forall k :: 0 <= k < |inputs| ==>
      && inputs[k].pose.Some? && !inputs[k].calibrate && inputs[k].badPosture
      && PostureCorrections(inputs[k].pose.value, cal, m) != []
    ensures RaisesBy(Processor(m), CalibratedPosture(cal), inputs, 2)
  {
    var keeps := CalibratedPosture(cal);
    forall x: State, k: nat | k < |inputs| && keeps(x)
      ensures && keeps(Processor(m)(x, inputs[k]).state)
        && Processor(m)(x, inputs[k]).state.badFrames == Bump(x.badFrames, 2)
        && Notifications(Processor(m)(x, inputs[k]).events) == Fired(x.badFrames, 2)
    {
      PostureBadFrame(x, inputs[k], cal, m);
    }
  }

  /** In posture mode, with a correction found on every frame and a bad
      external verdict, the counter rises by two per frame. */
  lemma PostureRunCount(s: State, inputs: seq<FrameInput>, cal: Frame, m: MathLib)
    requires s.mode == PostureMode && s.calibration == Some(cal)
    requires forall k :: 0 <= k < |inputs| ==>
      && inputs[k].pose.Some? && !inputs[k].calibrate && inputs[k].badPosture
      && PostureCorrections(inputs[k].pose.value, cal, m) != []
    ensures Run(s, inputs, m).state.calibration == Some(cal)
    ensures Run(s, inputs, m).state.badFrames == Count(s.badFrames, 2, |inputs|)
    ensures Notifications(Run(s, inputs, m).events) == FiredCount(s.badFrames, 2, |inputs|)
  {
    PostureBadFrames(inputs, cal, m);
    FoldCounter(Processor(m), CalibratedPosture(cal), s, inputs, 2);
  }

  /** In posture mode, with a correction found on every frame and a bad
      external verdict, the double count notifies once every 30 frames: the
      notifications are the quotient of the starting count plus 2n by 60. */
  lemma PersistentBadPostureCountsTwice(s: State, inputs: seq<FrameInput>, cal: Frame, m: MathLib)
    requires s.mode == PostureMode && s.calibration == Some(cal)
    requires s.badFrames < BadFrameLimit && s.badFrames % 2 == 0
    requires forall k :: 0 <= k < |inputs| ==>
      && inputs[k].pose.Some? && !inputs[k].calibrate && inputs[k].badPosture
      && PostureCorrections(inputs[k].pose.value, cal, m) != []
    ensures Run(s, inputs, m).state.badFrames < BadFrameLimit
    ensures s.badFrames + 2 * |inputs|
      == Notifications(Run(s, inputs, m).events) * BadFrameLimit + Run(s, inputs, m).state.badFrames
  {
    PostureRunCount(s, inputs, cal, m);
    CountByTwo(s.badFrames, |inputs|);
  }

  // ----- Speech over a run -----

  /** In posture mode a stretch of frames that notifies nothing speaks
      nothing and keeps the time of the last speech. */
  lemma {:induction false} QuietRunKeepsSpeechTime(s: State, inputs: seq<FrameInput>, m: MathLib)
    requires s.mode == PostureMode
    ensures var r := Run(s, inputs, m);
      Notifications(r.events) == 0 ==> Speeches(r.events) == 0 && r.state.lastSpoken == s.lastSpoken
    decreases |inputs|
  {
    if |inputs| > 0 {
      var first := Step(s, inputs[0], m);
      PostureSpeech(s, inputs[0], m);
      var rest := Run(first.state, inputs[1..], m);
      QuietRunKeepsSpeechTime(first.state, inputs[1..], m);
      assert Run(s, inputs, m) == Outcome(rest.state, first.events + rest.events);
      CountsAppend(first.events, rest.events);
    }
  }

  /** Two notifications in posture mode with only quiet frames between
      them: the first is spoken when the cooldown has passed, and then the
      second is spoken exactly when it comes more than the cooldown after
      the first. */
  lemma SpeechCooldownPair(
    s: State, first: FrameInput, middle: seq<FrameInput>, second: FrameInput, m: MathLib)
    requires s.mode == PostureMode
    ensures var o := Step(s, first, m);
      Notifications(o.events) == 1 && first.now - s.lastSpoken > SpeechCooldown ==> Speeches(o.events) == 1
    ensures var o := Step(s, first, m);
      var mid := Run(o.state, middle, m);
      var o' := Step(mid.state, second, m);
      Notifications(o.events) == 1 && first.now - s.lastSpoken > SpeechCooldown
        && Notifications(mid.events) == 0 && Notifications(o'.events) == 1 ==>
        Speeches(o'.events) == (if second.now - first.now > SpeechCooldown then 1 else 0)
  {
    var o := Step(s, first, m);
    PostureSpeech(s, first, m);
    var mid := Run(o.state, middle, m);
    QuietRunKeepsSpeechTime(o.state, middle, m);
    PostureSpeech(mid.state, second, m);
  }

  /** The pair above is not vacuous: from a counter of 58, with uneven
      shoulders on every frame and a bad verdict, the first frame notifies
      and speaks, the next 29 frames bring the counter back to 58 without a
      notification, and the frame after them notifies again; it is spoken
      exactly when it comes more than the cooldown after the first. */
  lemma SpeechCooldownWitness(f: Frame, m: MathLib, middle: seq<FrameInput>, later: int)
    requires Abs(f[LeftShoulder].y - f[RightShoulder].y) > 0.02
    requires |middle| == 29
    requires forall k :: 0 <= k < |middle| ==>
      middle[k].pose == Some(f) && !middle[k].calibrate && middle[k].badPosture
    ensures var s := State(PostureMode, 0, 0, BadFrameLimit - 2, 0, "", Some(f));
      var o := Step(s, FrameInput(Some(f), false, true, 40000), m);
      var mid := Run(o.state, middle, m);
      var o' := Step(mid.state, FrameInput(Some(f), false, true, later), m);
      && Notifications(o.events) == 1 && Speeches(o.events) == 1
      && Notifications(mid.events) == 0 && Notifications(o'.events) == 1
      && Speeches(o'.events) == (if later - 40000 > SpeechCooldown then 1 else 0)
  {
    var s := State(PostureMode, 0, 0, BadFrameLimit - 2, 0, "", Some(f));
    var first := FrameInput(Some(f), false, true, 40000);
    var second := FrameInput(Some(f), false, true, later);
    SameFrameUnevenShoulders(f, m);
    var o := Step(s, first, m);
    WitnessFirst(s, first, f, m);
    var mid := Run(o.state, middle, m);
    WitnessMiddle(o.state, middle, f, m);
    WitnessSecond(mid.state, second, f, m);
    SpeechCooldownPair(s, first, middle, second, m);
  }

  /** The first frame of the witness: 58 + 2 notifies and is spoken. */
  lemma WitnessFirst(s: State, first: FrameInput, f: Frame, m: MathLib)
    requires s.mode == PostureMode && s.calibration == Some(f)
    requires s.badFrames == BadFrameLimit - 2 && first.now - s.lastSpoken > SpeechCooldown
    requires first.pose == Some(f) && !first.calibrate && first.badPosture
    requires PostureCorrections(f, f, m) != []
    ensures var o := Step(s, first, m);
      && Notifications(o.events) == 1 && Speeches(o.events) == 1
      && o.state.badFrames == 0 && o.state.mode == PostureMode && o.state.calibration == Some(f)
  {
    PostureBadFrame(s, first, f, m);
    PostureSpeech(s, first, m);
  }

  /** The quiet stretch of the witness: 29 double counts from 0 reach 58. */
  lemma WitnessMiddle(x: State, middle: seq<FrameInput>, f: Frame, m: MathLib)
    requires x.mode == PostureMode && x.calibration == Some(f) && x.badFrames == 0
    requires |middle| == 29
    requires forall k :: 0 <= k < |middle| ==>
      middle[k].pose == Some(f) && !middle[k].calibrate && middle[k].badPosture
    requires PostureCorrections(f, f, m) != []
    ensures var mid := Run(x, middle, m);
      && Notifications(mid.events) == 0 && mid.state.badFrames == BadFrameLimit - 2
      && mid.state.mode == PostureMode && mid.state.calibration == Some(f)
  {
    PostureRunCount(x, middle, f, m);
    BelowLimit(0, 2, |middle|);
  }

  /** The last frame of the witness: 58 + 2 notifies again. */
  lemma WitnessSecond(y: State, second: FrameInput, f: Frame, m: MathLib)
    requires y.mode == PostureMode && y.calibration == Some(f) && y.badFrames == BadFrameLimit - 2
    requires second.pose == Some(f) && !second.calibrate && second.badPosture
    requires PostureCorrections(f, f, m) != []
    ensures Notifications(Step(y, second, m).events) == 1
  {
    PostureBadFrame(y, second, f, m);
  }

  /** Rises that stay below the limit add up and notify nothing. */
  lemma {:induction false} BelowLimit(b: nat, d: nat, n: nat)
    requires b + d * n < BadFrameLimit
    ensures Count(b, d, n) == b + d * n && FiredCount(b, d, n) == 0
    decreases n
  {
    if n > 0 {
      assert d * n == d * (n - 1) + d;
      BelowLimit(b + d, d, n - 1);
    }
  }
}

=== FILE: session.dfy ===
/** The per-frame processing of `onResults`, written as a pure step over an
    explicit session state. Browser side effects (speech, notifications, the
    posture-status style property, the skeleton colour) become events; the
    clock, the calibrate button and the external `badPosture` verdict become
    inputs. */
module Session {

  import opened Wrappers
  import opened Strings
  import opened Landmarks
  import opened Corrections
  import opened Posture
  import opened Exercises

  datatype Mode = PostureMode | PressUpMode | BridgingMode

  /** The values of the `--posture-status` style property. */
  datatype Status = Good | NeedsImprovement | Bad

  datatype Colour = Green | Red

  datatype Event =
    | Speak(text: string)
    | Notify(text: string)
    | ShowStatus(status: Status)
    | DrawSkeleton(colour: Colour)

  /** A hold completes a repetition once the hold counter exceeds this. */
  const HoldLimit: nat := 90
  /** The assumed camera rate, used to turn held frames into seconds. */
  const FramesPerSecond: nat := 30
  /** Consecutive bad frames (two seconds) before a notification. */
  const BadFrameLimit: nat := 60
  /** Minimum milliseconds between two spoken posture corrections. */
  const SpeechCooldown: int := 30000

  const PressUpDone: string := "Good rep! Slowly lower down and prepare for next press-up"
  const BridgeDone: string := "Good rep! Lower your hips slowly"
  const PressUpHoldCaption: string := "Hold position. "
  const BridgeHoldCaption: string := "Hold bridge. "
  const SecondsSuffix: string := " seconds"
  const CorrectPosture: string := "Correct your posture!"
  const DefaultCorrection: string := "Your posture needs correction. Please sit up straight."

  /** Everything the frame processor keeps between frames: the exercise
      mode, the hold and repetition counters, the consecutive-bad-frame
      counter, the time of the last spoken correction (milliseconds), the
      feedback text on screen, and the calibration frame once captured. */
  datatype State = State(
    mode: Mode,
    hold: nat,
    reps: nat,
    badFrames: nat,
    lastSpoken: int,
    feedback: string,
    calibration: Option<Frame>)

  /** The state when the application starts. */
  const Start: State := State(PostureMode, 0, 0, 0, 0, "", None)

  /** The start state keeps the bounds. */
  lemma StartInv()
    ensures Inv(Start)
  {
  }

  /** What arrives with one frame: the detected landmarks (`None` when no
      pose was found), the calibrate flag `btnSelected` as it stands at this
      frame, the external bad-posture verdict, and the wall-clock time. The
      flag outlives frames without a pose and is cleared by the frame that
      stores the calibration; keeping it set until then is left to whoever
      supplies the inputs. */
  datatype FrameInput = FrameInput(pose: Option<Frame>, calibrate: bool, badPosture: bool, now: int)

  datatype Outcome = Outcome(state: State, events: seq<Event>)

  /** Bounds every reachable state keeps. */
  predicate Inv(s: State)
  {
    s.badFrames < BadFrameLimit && s.hold <= HoldLimit + 1
  }

  /** JavaScript falsiness of an evaluator's result: `null` or "". */
  predicate Falsy(verdict: Option<string>)
  {
    verdict.None? || verdict.value == ""
  }

  function Notifications(events: seq<Event>): nat
  {
    if |events| == 0 then 0
    else (if events[0].Notify? then 1 else 0) + Notifications(events[1..])
  }

  function Speeches(events: seq<Event>): nat
  {
    if |events| == 0 then 0
    else (if events[0].Speak? then 1 else 0) + Speeches(events[1..])
  }

  lemma {:induction false} CountsAppend(a: seq<Event>, b: seq<Event>)
    ensures Notifications(a + b) == Notifications(a) + Notifications(b)
    ensures Speeches(a + b) == Speeches(a) + Speeches(b)
    decreases |a|
  {
    if |a| > 0 {
      assert (a + b)[1..] == a[1..] + b;
      CountsAppend(a[1..], b);
    } else {
      assert a + b == b;
    }
  }

  /** The text reads `caption`, a whole number in decimal, then " seconds",
      and the number is `n`. */
  predicate ShowsSeconds(text: string, caption: string, n: nat)
  {
    && |text| >= |caption| + |SecondsSuffix|
    && text[..|caption|] == caption
    && text[|text| - |SecondsSuffix|..] == SecondsSuffix
    && IsDecimal(text[|caption|..|text| - |SecondsSuffix|])
    && ParseNat(text[|caption|..|text| - |SecondsSuffix|]) == n
  }

  /** The template literal `${caption}${Math.floor(hold/30)} seconds`. */
  function HoldText(caption: string, hold: nat): (t: string)
    ensures ShowsSeconds(t, caption, hold / FramesPerSecond)
  {
    var digits := NatToString(hold / FramesPerSecond);
    ParseNatToString(hold / FramesPerSecond);
    var t := caption + digits + SecondsSuffix;
    assert t[..|caption|] == caption;
    assert t[|t| - |SecondsSuffix|..] == SecondsSuffix;
    assert t[|caption|..|t| - |SecondsSuffix|] == digits;
    t
  }

  /** The exercise branch of the frame processor. On a passing frame the
      hold counter advances; the state update queued as `prev + 1` is
      overridden by the reset to 0 when the counter read at the start of
      the frame already exceeds the limit, and that frame completes a
      repetition. A failing frame leaves both counters alone. The screen
      shows the evaluator's phrases, or on a passing frame the seconds held
      as counted before this frame. */
  function ExerciseFrame(s: State, verdict: Option<string>, done: string, caption: string): (o: Outcome)
    ensures Falsy(verdict) && s.hold > HoldLimit ==>
      o.state.reps == s.reps + 1 && o.state.hold == 0
    ensures Falsy(verdict) && s.hold <= HoldLimit ==>
      o.state.reps == s.reps && o.state.hold == s.hold + 1
    ensures !Falsy(verdict) ==> o.state.reps == s.reps && o.state.hold == s.hold
    ensures Speeches(o.events) == (if Falsy(verdict) && s.hold > HoldLimit then 1 else 0)
    ensures Falsy(verdict) && s.hold > HoldLimit ==> Speak(done) in o.events
    ensures Notifications(o.events) == 0
    ensures !Falsy(verdict) ==> o.state.feedback == verdict.value
    ensures Falsy(verdict) ==> ShowsSeconds(o.state.feedback, caption, s.hold / FramesPerSecond)
    ensures o.state.mode == s.mode && o.state.badFrames == s.badFrames
    ensures o.state.lastSpoken == s.lastSpoken && o.state.calibration == s.calibration
    ensures DrawSkeleton(if Falsy(verdict) then Green else Red) in o.events
  {
    var passing := Falsy(verdict);
    var completes := passing && s.hold > HoldLimit;
    var hold := if completes then 0 else if passing then s.hold + 1 else s.hold;
    var reps := if completes then s.reps + 1 else s.reps;
    var colour := if passing then Green else Red;
    var text := if passing then HoldText(caption, s.hold) else verdict.value;
    var events := (if completes then [Speak(done)] else []) + [DrawSkeleton(colour)];
    assert Notifications([DrawSkeleton(colour)]) == 0;
    CountsAppend(if completes then [Speak(done)] else [], [DrawSkeleton(colour)]);
    Outcome(s.(hold := hold, reps := reps, feedback := text), events)
  }

  /** The posture branch, run only with a calibration frame: the feedback
      is shown, and the bad-frame counter is cleared when it carries the
      good-posture marker and bumped otherwise. */
  function PostureFrame(s: State, feedback: string): (o: Outcome)
    ensures o.state.feedback == feedback
    ensures Contains(feedback, GreatMarker) ==> o.state.badFrames == 0
    ensures !Contains(feedback, GreatMarker) ==> o.state.badFrames == s.badFrames + 1
    ensures Notifications(o.events) == 0 && Speeches(o.events) == 0
    ensures o.state == s.(badFrames := o.state.badFrames, feedback := feedback)
    ensures var great := Contains(feedback, GreatMarker);
      o.events == [ShowStatus(if great then Good else NeedsImprovement), DrawSkeleton(if great then Green else Red)]
  {
    if Contains(feedback, GreatMarker) then
      Outcome(s.(feedback := feedback, badFrames := 0), [ShowStatus(Good), DrawSkeleton(Green)])
    else
      Outcome(s.(feedback := feedback, badFrames := s.badFrames + 1),
              [ShowStatus(NeedsImprovement), DrawSkeleton(Red)])
  }

  /** The bad-posture debounce, run whenever a calibration frame exists. A
      good verdict clears the counter. A bad one bumps it; on reaching the
      limit one notification fires and the counter clears, and the
      correction on screen before this frame is spoken only if the last
      speech is more than the cooldown ago. */
  function Debounce(s: State, onScreen: string, bad: bool, now: int): (o: Outcome)
    ensures !bad ==> o.state.badFrames == 0
    ensures bad && s.badFrames + 1 < BadFrameLimit ==> o.state.badFrames == s.badFrames + 1
    ensures bad && s.badFrames + 1 >= BadFrameLimit ==> o.state.badFrames == 0
    ensures o.state.badFrames < BadFrameLimit
    ensures Notifications(o.events) == (if bad && s.badFrames + 1 >= BadFrameLimit then 1 else 0)
    ensures Speeches(o.events) ==
      (if bad && s.badFrames + 1 >= BadFrameLimit && now - s.lastSpoken > SpeechCooldown then 1 else 0)
    ensures o.state.lastSpoken == (if Speeches(o.events) == 1 then now else s.lastSpoken)
    ensures bad && s.badFrames + 1 >= BadFrameLimit ==> Notify(CorrectPosture) in o.events
    ensures Speeches(o.events) == 1 ==>
      Speak(if onScreen == "" then DefaultCorrection else onScreen) in o.events
    ensures o.state == s.(badFrames := o.state.badFrames, lastSpoken := o.state.lastSpoken)
    ensures |o.events| > 0 && o.events[0] == ShowStatus(if bad then Bad else Good)
    ensures forall j :: 0 < j < |o.events| ==> !o.events[j].ShowStatus?
  {
    if bad then
      var count := s.badFrames + 1;
      if count >= BadFrameLimit then
        var speak := now - s.lastSpoken > SpeechCooldown;
        var spoken := if onScreen == "" then DefaultCorrection else onScreen;
        var events := [ShowStatus(Bad), Notify(CorrectPosture)] + (if speak then [Speak(spoken)] else []);
        CountsAppend([ShowStatus(Bad), Notify(CorrectPosture)], if speak then [Speak(spoken)] else []);
        Outcome(s.(badFrames := 0, lastSpoken := if speak then now else s.lastSpoken), events)
      else
        Outcome(s.(badFrames := count), [ShowStatus(Bad)])
    else
      Outcome(s.(badFrames := 0), [ShowStatus(Good)])
  }

  /** The evaluation part of a frame with a detected pose, by mode. Without
      a calibration frame the posture mode evaluates nothing and draws the
      skeleton in the default green. */
  function Evaluate(s: State, f: Frame, m: MathLib): Outcome
  {
    match s.mode
    case PressUpMode => ExerciseFrame(s, PressUpFeedback(Some(f), m), PressUpDone, PressUpHoldCaption)
    case BridgingMode => ExerciseFrame(s, BridgingFeedback(Some(f)), BridgeDone, BridgeHoldCaption)
    case PostureMode =>
      if s.calibration.Some? then PostureFrame(s, PostureFeedback(f, s.calibration.value, m))
      else Outcome(s, [DrawSkeleton(Green)])
  }

  /** One call of the frame processor. With no pose nothing changes and
      nothing is emitted. Otherwise the mode's evaluation runs (against the
      calibration held before this frame), then a pressed calibrate button
      replaces the calibration frame with this frame, then, if a
      calibration frame now exists, the debounce runs. */
  function Step(s: State, input: FrameInput, m: MathLib): (o: Outcome)
    ensures input.pose.None? ==> o == Outcome(s, [])
    ensures input.pose.Some? && input.calibrate ==> o.state.calibration == input.pose
    ensures !input.calibrate ==> o.state.calibration == s.calibration
    ensures o.state.mode == s.mode
    ensures Inv(s) ==> Inv(o.state)
    ensures o.state.lastSpoken == s.lastSpoken
      || (o.state.lastSpoken == input.now && input.now - s.lastSpoken > SpeechCooldown)
    ensures Notifications(o.events) <= 1
  {
    match input.pose
    case None => Outcome(s, [])
    case Some(f) =>
      var evaluated := Evaluate(s, f, m);
      var calibrated :=
        if input.calibrate then evaluated.state.(calibration := Some(f)) else evaluated.state;
      if calibrated.calibration.None? then
        Outcome(calibrated, evaluated.events)
      else
        var d := Debounce(calibrated, s.feedback, input.badPosture, input.now);
        CountsAppend(evaluated.events, d.events);
        Outcome(d.state, evaluated.events + d.events)
  }

  /** `handleModeChange`: switching mode clears the repetition count and
      nothing else (the hold counter carries over). */
  function ChangeMode(s: State, mode: Mode): (s': State)
    ensures s'.mode == mode && s'.reps == 0
    ensures s' == s.(mode := s'.mode, reps := s'.reps)
    ensures Inv(s) ==> Inv(s')
  {
    s.(mode := mode, reps := 0)
  }

  // ----- What one frame does, by case -----

  /** Bridging mode: a held bridge advances the hold counter, or completes a
      repetition once the counter read at the start of the frame exceeds the
      limit; any other frame shows the corrections and leaves both counters
      alone. The debounce that may follow touches neither. */
  lemma BridgingStep(s: State, input: FrameInput, f: Frame, m: MathLib)
    requires s.mode == BridgingMode && input.pose == Some(f)
    ensures var o := Step(s, input, m).state;
      && (BridgeHeld(f) && s.hold > HoldLimit ==> o.reps == s.reps + 1 && o.hold == 0)
      && (BridgeHeld(f) && s.hold <= HoldLimit ==> o.reps == s.reps && o.hold == s.hold + 1)
      && (BridgeHeld(f) ==> ShowsSeconds(o.feedback, BridgeHoldCaption, s.hold / FramesPerSecond))
      && (!BridgeHeld(f) ==> o.reps == s.reps && o.hold == s.hold)
      && (!BridgeHeld(f) ==> Split(o.feedback) == Texts(BridgingCorrections(f)))
  {
    var e := ExerciseFrame(s, BridgingFeedback(Some(f)), BridgeDone, BridgeHoldCaption);
    assert Evaluate(s, f, m) == e;
    StepKeepsEvaluation(s, input, f, m);
  }

  /** After the evaluation, a frame only touches the calibration, the
      bad-frame counter and the speech time: the hold and repetition
      counters and the feedback are the evaluation's. */
  lemma StepKeepsEvaluation(s: State, input: FrameInput, f: Frame, m: MathLib)
    requires input.pose == Some(f)
    ensures var o := Step(s, input, m).state;
      var e := Evaluate(s, f, m).state;
      o.hold == e.hold && o.reps == e.reps && o.feedback == e.feedback
  {
    var evaluated := Evaluate(s, f, m);
    var calibrated :=
      if input.calibrate then evaluated.state.(calibration := Some(f)) else evaluated.state;
    if calibrated.calibration.Some? {
      var d := Debounce(calibrated, s.feedback, input.badPosture, input.now);
      assert Step(s, input, m).state == d.state;
    }
  }

  /** Press-up mode: the evaluator never passes a frame, so the hold and
      repetition counters never move. */
  /** Posture mode with a calibration frame shows the posture verdict for
      this frame against that calibration. */
  lemma PostureStepShows(s: State, input: FrameInput, f: Frame, cal: Frame, m: MathLib)
    requires s.mode == PostureMode && s.calibration == Some(cal) && input.pose == Some(f)
    ensures Step(s, input, m).state.feedback == PostureFeedback(f, cal, m)
  {
    assert Evaluate(s, f, m) == PostureFrame(s, PostureFeedback(f, cal, m));
  }

  /** The status the page is left showing after a list of events: the
      last `ShowStatus` among them, if any. */
  function LastStatus(events: seq<Event>): Option<Status>
    decreases |events|
  {
    if |events| == 0 then None
    else if events[|events| - 1].ShowStatus? then Some(events[|events| - 1].status)
    else LastStatus(events[..|events| - 1])
  }

  /** A tail that opens with a status and shows no other decides the last
      status, whatever comes before it. */
  lemma {:induction false} LastStatusOfTail(a: seq<Event>, b: seq<Event>)
    requires |b| > 0 && b[0].ShowStatus?
    requires forall j :: 0 < j < |b| ==> !b[j].ShowStatus?
    ensures LastStatus(a + b) == Some(b[0].status)
    decreases |b|
  {
    var e := a + b;
    assert e[|e| - 1] == b[|b| - 1];
    if |b| > 1 {
      var b' := b[..|b| - 1];
      assert e[..|e| - 1] == a + b';
      LastStatusOfTail(a, b');
    }
  }

  /** On every frame with a pose and a calibration frame (held, or taken
      on this frame), the page is left showing the external verdict: the
      debounce's BAD or GOOD overwrites the GOOD or NEEDS IMPROVEMENT the
      posture branch showed earlier in the same frame. */
  lemma FinalStatusIsVerdict(s: State, input: FrameInput, m: MathLib)
    requires input.pose.Some? && (s.calibration.Some? || input.calibrate)
    ensures LastStatus(Step(s, input, m).events) == Some(if input.badPosture then Bad else Good)
  {
    var f := input.pose.value;
    var evaluated := Evaluate(s, f, m);
    var calibrated :=
      if input.calibrate then evaluated.state.(calibration := Some(f)) else evaluated.state;
    var d := Debounce(calibrated, s.feedback, input.badPosture, input.now);
    assert Step(s, input, m).events == evaluated.events + d.events;
    LastStatusOfTail(evaluated.events, d.events);
  }

  lemma PressUpNeverCounts(s: State, input: FrameInput, m: MathLib)
    requires s.mode == PressUpMode
    ensures Step(s, input, m).state.hold == s.hold
    ensures Step(s, input, m).state.reps == s.reps
  {
  }

  /** Without a calibration frame (and no calibration this frame) the
      debounce does not run: its counter and the speech time are untouched
      and nothing is notified; in posture mode the whole state is. */
  lemma UncalibratedStep(s: State, input: FrameInput, m: MathLib)
    requires s.calibration.None? && !input.calibrate
    ensures var o := Step(s, input, m);
      && o.state.badFrames == s.badFrames
      && o.state.lastSpoken == s.lastSpoken
      && Notifications(o.events) == 0
      && (s.mode == PostureMode ==> o.state == s)
  {
  }

  /** The bad-frame count the debounce starts from: in posture mode with a
      calibration frame, already cleared or bumped by the posture branch. */
  function CountBeforeDebounce(s: State, f: Frame, m: MathLib): nat
  {
    if s.mode == PostureMode && s.calibration.Some? then
      if PostureCorrections(f, s.calibration.value, m) == [] then 0 else s.badFrames + 1
    else s.badFrames
  }

  /** With a calibration frame (held or captured now), a good external
      verdict clears the bad-frame counter; a bad one bumps it, and reaching
      the limit notifies once and clears it. */
  lemma DebounceStep(s: State, input: FrameInput, f: Frame, m: MathLib)
    requires input.pose == Some(f)
    requires s.calibration.Some? || input.calibrate
    ensures var o := Step(s, input, m);
      var count := CountBeforeDebounce(s, f, m) + 1;
      && (!input.badPosture ==> o.state.badFrames == 0 && Notifications(o.events) == 0)
      && (input.badPosture && count < BadFrameLimit ==>
            o.state.badFrames == count && Notifications(o.events) == 0)
      && (input.badPosture && count >= BadFrameLimit ==>
            o.state.badFrames == 0 && Notifications(o.events) == 1)
  {
    var evaluated := Evaluate(s, f, m);
    if s.mode == PostureMode && s.calibration.Some? {
      var cs := PostureCorrections(f, s.calibration.value, m);
      assert evaluated.state.badFrames == CountBeforeDebounce(s, f, m);
    }
    var calibrated :=
      if input.calibrate then evaluated.state.(calibration := Some(f)) else evaluated.state;
    var d := Debounce(calibrated, s.feedback, input.badPosture, input.now);
    CountsAppend(evaluated.events, d.events);
  }

  /** The bad-frame counter after a rise by `d`, cleared at the limit. */
  function Bump(b: nat, d: nat): nat
  {
    if b + d < BadFrameLimit then b + d else 0
  }

  /** Notifications fired by a rise of the counter by `d`. */
  function Fired(b: nat, d: nat): nat
  {
    if b + d < BadFrameLimit then 0 else 1
  }

  /** An exercise mode with a calibration frame. */
  predicate CalibratedExercise(s: State)
  {
    s.mode != PostureMode && s.calibration.Some?
  }

  /** One frame of a persistent bad verdict in a calibrated exercise mode. */
  lemma ExerciseBadFrame(x: State, input: FrameInput, m: MathLib)
    requires CalibratedExercise(x)
    requires input.pose.Some? && input.badPosture
    ensures var o := Step(x, input, m);
      && CalibratedExercise(o.state)
      && o.state.badFrames == Bump(x.badFrames, 1)
      && Notifications(o.events) == Fired(x.badFrames, 1)
  {
    DebounceStep(x, input, input.pose.value, m);
  }

  /** One frame of a persistent bad verdict in calibrated posture mode, with
      a correction found: the counter rises by two. */
  lemma PostureBadFrame(x: State, input: FrameInput, cal: Frame, m: MathLib)
    requires x.mode == PostureMode && x.calibration == Some(cal)
    requires input.pose.Some? && !input.calibrate && input.badPosture
    requires PostureCorrections(input.pose.value, cal, m) != []
    ensures var o := Step(x, input, m);
      && o.state.mode == PostureMode && o.state.calibration == Some(cal)
      && o.state.badFrames == Bump(x.badFrames, 2)
      && Notifications(o.events) == Fired(x.badFrames, 2)
  {
    DebounceStep(x, input, input.pose.value, m);
  }

  /** The double count overshoots the limit from an odd counter: from 59,
      one frame with a correction and a bad verdict reaches 61, notifies
      once and clears the counter, so one count is lost. */
  lemma PostureOvershoot(x: State, input: FrameInput, cal: Frame, m: MathLib)
    requires x.mode == PostureMode && x.calibration == Some(cal) && x.badFrames == BadFrameLimit - 1
    requires input.pose.Some? && !input.calibrate && input.badPosture
    requires PostureCorrections(input.pose.value, cal, m) != []
    ensures var o := Step(x, input, m);
      && o.state.badFrames == 0 && Notifications(o.events) == 1
      && x.badFrames + 2 != Notifications(o.events) * BadFrameLimit + o.state.badFrames
  {
    PostureBadFrame(x, input, cal, m);
  }

  /** Posture mode counts a frame twice when the posture evaluator finds a
      correction and the external verdict is bad: once in the posture
      branch and once in the debounce. */
  lemma DoubleIncrement(s: State, input: FrameInput, f: Frame, cal: Frame, m: MathLib)
    requires s.mode == PostureMode && s.calibration == Some(cal)
    requires input.pose == Some(f) && !input.calibrate && input.badPosture
    requires PostureCorrections(f, cal, m) != []
    requires s.badFrames + 2 < BadFrameLimit
    ensures Step(s, input, m).state.badFrames == s.badFrames + 2
  {
    DebounceStep(s, input, f, m);
  }

  /** In posture mode the only speech is the debounce's: it happens exactly
      when a notification fires more than the cooldown after the last
      speech, and it records the time. */
  lemma PostureSpeech(s: State, input: FrameInput, m: MathLib)
    requires s.mode == PostureMode
    ensures var o := Step(s, input, m);
      && Speeches(o.events) ==
           (if Notifications(o.events) == 1 && input.now - s.lastSpoken > SpeechCooldown then 1 else 0)
      && o.state.lastSpoken == (if Speeches(o.events) == 1 then input.now else s.lastSpoken)
  {
    if input.pose.Some? {
      var f := input.pose.value;
      var evaluated := Evaluate(s, f, m);
      assert Speeches(evaluated.events) == 0 && Notifications(evaluated.events) == 0;
      var calibrated :=
        if input.calibrate then evaluated.state.(calibration := Some(f)) else evaluated.state;
      if calibrated.calibration.Some? {
        var d := Debounce(calibrated, s.feedback, input.badPosture, input.now);
        CountsAppend(evaluated.events, d.events);
      }
    }
  }

}

=== FILE: strings.dfy ===
/** Text helpers used by the evaluators: joining phrases with ". " the way
    `Array.prototype.join` does, splitting such a string back into its
    phrases, substring search (`String.prototype.includes`) and the decimal
    rendering a template literal gives a whole number. */
module Strings {

  /** The separator every evaluator joins its phrases with. */
  const Separator: string := ". "

  /** `phrases.join(". ")`: the empty list joins to the empty string. */
  function Join(phrases: seq<string>): string
  {
    if |phrases| == 0 then ""
    else if |phrases| == 1 then phrases[0]
    else phrases[0] + Separator + Join(phrases[1..])
  }

  /** Index of the first '.' in `s`, or `|s|` when there is none. */
  function FirstDot(s: string): (i: nat)
    ensures i <= |s|
    ensures forall j :: 0 <= j < i ==> s[j] != '.'
    ensures i < |s| ==> s[i] == '.'
  {
    if |s| == 0 || s[0] == '.' then 0 else 1 + FirstDot(s[1..])
  }

  /** Cuts `s` at every '.' and drops the character after each cut (the
      blank of the separator). On a string built by `Join` from phrases
      without a '.', this recovers the phrases. */
  function Split(s: string): (parts: seq<string>)
    ensures |parts| >= 1
    ensures forall k :: 0 <= k < |parts| ==> '.' !in parts[k]
    decreases |s|
  {
    var i := FirstDot(s);
    if i == |s| then [s]
    else [s[..i]] + Split(s[if i + 2 <= |s| then i + 2 else |s|..])
  }

  lemma FirstDotAfterPhrase(p: string, t: string)
    requires '.' !in p
    requires |t| > 0 ==> t[0] == '.'
    ensures FirstDot(p + t) == |p|
  {
    var s := p + t;
    assert forall j :: 0 <= j < |p| ==> s[j] == p[j];
    assert |t| > 0 ==> s[|p|] == t[0];
  }

  /** Joining phrases that contain no '.' loses nothing: the string
      determines the list of phrases. */
  lemma {:induction false} SplitJoin(phrases: seq<string>)
    requires |phrases| >= 1
    requires forall k :: 0 <= k < |phrases| ==> '.' !in phrases[k]
    ensures Split(Join(phrases)) == phrases
  {
    var p := phrases[0];
    if |phrases| == 1 {
      FirstDotAfterPhrase(p, "");
      assert p + "" == p;
    } else {
      var rest := Join(phrases[1..]);
      var s := p + Separator + rest;
      assert s == p + (Separator + rest);
      FirstDotAfterPhrase(p, Separator + rest);
      assert s[..|p|] == p;
      assert s[|p| + 2..] == rest;
      assert Split(s) == [p] + Split(rest);
      SplitJoin(phrases[1..]);
      assert phrases == [p] + phrases[1..];
    }
  }

  /** A string joined from phrases that are all non-empty is empty exactly
      when there were no phrases. */
  lemma JoinEmpty(phrases: seq<string>)
    requires forall k :: 0 <= k < |phrases| ==> |phrases[k]| > 0
    ensures Join(phrases) == "" <==> |phrases| == 0
  {
    if |phrases| > 0 {
      assert |Join(phrases)| >= |phrases[0]|;
    }
  }

  /** A character that occurs in no phrase and not in the separator does not
      occur in the joined string. */
  lemma {:induction false} CharNotInJoin(phrases: seq<string>, c: char)
    requires forall k :: 0 <= k < |phrases| ==> c !in phrases[k]
    requires c !in Separator
    ensures c !in Join(phrases)
  {
    if |phrases| > 1 {
      CharNotInJoin(phrases[1..], c);
      var s := Join(phrases);
      assert s == phrases[0] + Separator + Join(phrases[1..]);
      forall j | 0 <= j < |s|
        ensures s[j] != c
      {
        if j < |phrases[0]| {
          assert s[j] == phrases[0][j];
        } else if j < |phrases[0]| + 2 {
          assert s[j] == Separator[j - |phrases[0]|];
        } else {
          assert s[j] == Join(phrases[1..])[j - |phrases[0]| - 2];
        }
      }
    }
  }

  /** Every '.' in `s` is followed by a blank: the dots are the separators'
      and not the end of the text. */
  predicate DotsSeparate(s: string)
  {
    forall i :: 0 <= i < |s| && s[i] == '.' ==> i + 1 < |s| && s[i + 1] == ' '
  }

  /** In a string joined from phrases without a '.', every '.' is the first
      character of a separator. */
  lemma {:induction false} JoinDotsSeparate(phrases: seq<string>)
    requires forall k :: 0 <= k < |phrases| ==> '.' !in phrases[k]
    ensures DotsSeparate(Join(phrases))
  {
    if |phrases| == 1 {
      assert '.' !in phrases[0];
    } else if |phrases| > 1 {
      JoinDotsSeparate(phrases[1..]);
      var p := phrases[0];
      var rest := Join(phrases[1..]);
      var s := Join(phrases);
      assert s == p + Separator + rest;
      forall i | 0 <= i < |s| && s[i] == '.'
        ensures i + 1 < |s| && s[i + 1] == ' '
      {
        if i >= |p| + 2 {
          assert s[i] == rest[i - |p| - 2];
          assert s[i + 1] == rest[i + 1 - |p| - 2];
        }
      }
    }
  }

  /** `t` occurs in `s` starting at index `i`. */
  predicate OccursAt(s: string, t: string, i: int)
  {
    0 <= i && i + |t| <= |s| && s[i..i + |t|] == t
  }

  /** `s.includes(t)`. */
  predicate Contains(s: string, t: string)
  {
    exists i :: 0 <= i <= |s| && OccursAt(s, t, i)
  }

  lemma ContainsFirstChar(s: string, t: string)
    requires |t| > 0
    requires Contains(s, t)
    ensures t[0] in s
  {
    var i :| 0 <= i <= |s| && OccursAt(s, t, i);
    assert s[i] == t[0];
  }

  /** The digit character for a value below ten. */
  function DigitChar(d: nat): (c: char)
    requires d < 10
    ensures '0' <= c <= '9'
  {
    ('0' as int + d) as char
  }

  function DigitValue(c: char): nat
  {
    if '0' <= c <= '9' then c as int - '0' as int else 0
  }

  /** A whole number written in decimal: at least one digit, only digits,
      and no leading zero unless the number is zero itself. */
  predicate IsDecimal(s: string)
  {
    && |s| >= 1
    && (forall i :: 0 <= i < |s| ==> '0' <= s[i] <= '9')
    && (s[0] == '0' ==> s == "0")
  }

  /** The decimal rendering of `n` that a template literal produces. */
  function NatToString(n: nat): (s: string)
    ensures IsDecimal(s)
    ensures s == "0" <==> n == 0
    decreases n
  {
    if n < 10 then [DigitChar(n)] else NatToString(n / 10) + [DigitChar(n % 10)]
  }

  /** Reads a string of decimal digits back as a number. */
  function ParseNat(s: string): nat
    decreases |s|
  {
    if |s| == 0 then 0 else ParseNat(s[..|s| - 1]) * 10 + DigitValue(s[|s| - 1])
  }

  /** Rendering a number and reading it back gives the number. */
  lemma {:induction false} ParseNatToString(n: nat)
    ensures ParseNat(NatToString(n)) == n
    decreases n
  {
    var s := NatToString(n);
    if n >= 10 {
      assert s[..|s| - 1] == NatToString(n / 10);
      ParseNatToString(n / 10);
    }
  }

  /** Reading a decimal numeral and rendering the number gives the numeral
      back: a decimal numeral is exactly the rendering of one number. */
  lemma {:induction false} ToStringParseNat(s: string)
    requires IsDecimal(s)
    ensures NatToString(ParseNat(s)) == s
    decreases |s|
  {
    var d := DigitValue(s[|s| - 1]);
    if |s| == 1 {
      assert ParseNat(s) == d;
      assert [DigitChar(d)] == s;
    } else {
      var p := s[..|s| - 1];
      assert p[0] == s[0];
      assert IsDecimal(p);
      ToStringParseNat(p);
      var a := ParseNat(p);
      assert a != 0;
      var n := a * 10 + d;
      assert n == ParseNat(s);
      assert n / 10 == a && n % 10 == d;
      assert DigitChar(d) == s[|s| - 1];
      assert s == p + [s[|s| - 1]];
    }
  }
}

=== FILE: wrappers.dfy ===
/** The optional value used where the source passes `null` or leaves a
    value unset (a missing pose, a missing calibration frame). */
module Wrappers {

  datatype Option<+T> = None | Some(value: T)
}
